=== FILE: README.md ===
# Chemin minimal — the authoritative game engine, in Dafny

The game server of *Chemin minimal* runs multiplayer sessions of a grid path
game. A grid of `ROWS × COLS` cells (11 × 8) holds a shuffled permutation of
`1..ROWS·COLS`. Each eligible player picks one cell per row, from row 0 to the
last row. Every cell after the first must be on the next row and at most one
column away from the previous cell. A path scores the first cell's value plus
the absolute differences between consecutive values. Lower is better. When
the play clock runs out, the server computes the optimal path with a dynamic
program and ranks the players who finished.

This project models that engine (`server.js`) as pure functions over
immutable data, parameterised by `Config(rows, cols, prepSeconds,
gameSeconds)` with `rows, cols >= 1`. `Session.Reference` is the server's
configuration (11, 8, 45, 60). Modules:

- `Paths` (paths.dfy): cells, grids, the move rule `CanMove`, the
  independent path invariant `LegalPath`, and `ComputeScore`.
- `GridGen` (grid_gen.dfy): `range`, `shuffle` (Fisher–Yates over an oracle
  of draws) and `makeGrid`.
- `Solver` (solver.dfy): `computeOptimalPath`, with the DP table, the
  `dc` scan, the leftmost end-column scan and back-pointer reconstruction.
- `Names` (names.dfy): JavaScript `trim`, decimal rendering of the `#i`
  suffix, and `ensureUniqueName`.
- `Players` (players.dfy): the player records, kept in connection order
  like the server's `Map`.
- `Ranking` (ranking.dfy): the `finished` / `nonClasse` lists built by
  `endGame`.
- `Session` (session.dfy): the session state, the session invariant
  `Valid`, the phase functions, the socket handlers, and an event loop
  `Step` / `Run`.
- `Scenarios` (scenarios.dfy): small worked instances, and the server's own
  configuration.

`Paths.CanMove`, `Ranking.EndRanking` and `Session.Init` are plain
definitions of `canMove` (server.js:40-46), of the two lists of `endGame`
(server.js:196-205) and of the initial globals (server.js:103-112). What
they guarantee is stated by `Paths.CanMoveKeepsLegal`,
`Ranking.RankingOrdered`, `Ranking.RankingPartitions` and
`Session.InitValid`.

Points of the code worth knowing, each of which the model follows:

- The score counts the first cell's own value (server.js:50). So on the
  grid `[[3, 1], [2, 5]]` the optimum is (0,1)→(1,0) with score 2
  (`Scenarios.TwoByTwoOptimum`).
- The DP seeds row 0 with the grid value (server.js:63), which keeps the DP
  consistent with the score.
- `canMove` does not check the column range. The move handler does that
  (server.js:267).
- `reset` is honoured only in Idle (server.js:212, 257). So nothing leads
  from Ended back to Idle (`Session.EndedIsFinal`).
- `join` always makes the player a spectator with `canPlay = false`, even
  for a participant mid-game (server.js:241-246). That player then drops
  out of the ranking.

External inputs become parameters:

- `Math.random` in `shuffle` becomes `picks`, where `picks[i]` is the index
  drawn at step `i` and lies in `[0, i]`.
- `Date.now()` becomes the `now` argument of a move.
- Each `setInterval` callback becomes a `Tick` event.
- The `typeof` checks on move coordinates become `Option<int>`.
- The acknowledgement callbacks become return values (`MoveAck`,
  `Joined.name`). The `end` message becomes `Outcome.report`.

## Model

| member | source | states |
|---|---|---|
| Paths.CanMoveKeepsLegal | server.js:40-46 | For a legal path, `canMove` plus the handler's range check accepts a cell exactly when the extended path is still legal (cell i on row i, columns in range, neighbours at most one column apart) and within the rows; on the empty path that means exactly the row-0 cells |
| Paths.ScoreFrom | server.js:51-55 | The scoring loop never lowers the running total: the result is at least the starting accumulator |
| Paths.ComputeScore | server.js:48-57 | The empty path scores 0, and the score of a non-empty path is at least its first cell's value |
| Paths.ScoreFromAppend | server.js:51-55 | Running the scoring loop over a path with one more cell adds exactly the last absolute difference |
| Paths.ComputeScoreAppend | server.js:48-57 | Incremental scoring equals scoring from scratch: appending a cell to a non-empty path adds exactly the absolute difference between the new value and the previous last value |
| Paths.ComputeScoreSingle | server.js:48-50 | A one-cell path scores that cell's own value |
| Paths.ComputeScorePrefix | server.js:48-57 | On every prefix, the next prefix's score is this prefix's score plus one absolute difference |
| GridGen.Range1 | server.js:24-29 | `range(n).map(i => i + 1)` has length n and holds i + 1 at position i |
| GridGen.Range1Counts | server.js:29 | Each of 1..n occurs exactly once in the range, and no other value occurs |
| GridGen.Swap | server.js:25 | One swap exchanges two entries, keeps every other entry, and keeps the multiset |
| GridGen.ShuffleDown | server.js:25 | The shuffle loop from step i down to 1 keeps the length and the multiset of values |
| GridGen.Shuffle | server.js:25 | `shuffle` returns a permutation of its input, for every sequence of draws in range |
| GridGen.Chunk | server.js:30-36 | Cutting rows·cols values into rows gives `rows` rows of `cols` entries |
| GridGen.FlattenChunk | server.js:30-36 | Reading the grid back row after row gives the shuffled values back |
| GridGen.RowMajor | server.js:31-35 | The counter k reaches r·cols + c at cell (r, c), and that position is inside the value list |
| GridGen.ChunkAt | server.js:31-36 | Cell (r, c) holds value number r·cols + c, as the row-major counter k assigns it |
| GridGen.MakeGrid | server.js:27-38 | `makeGrid` returns `rows` rows of `cols` entries |
| GridGen.MakeGridIsPermutation | server.js:27-38 | The generated grid's flattened values are a permutation of 1..rows·cols: each occurs exactly once and nothing else occurs |
| GridGen.MakeGridAt | server.js:31-35 | Generated cell (r, c) is shuffled value number r·cols + c |
| Solver.BestPred | server.js:66-78 | The predecessor chosen for (r, c) is an adjacent in-range column achieving the least candidate cost; every adjacent column scanned earlier (dc order −1, 0, +1) costs strictly more |
| Solver.DpRow | server.js:61-80 | Row 0 holds each cell's grid value with no back-pointer; later rows have back-pointers to an adjacent in-range column |
| Solver.Reconstruct | server.js:89-98 | Following back-pointers from (r, c) gives a legal path of r + 1 cells ending at (r, c), each cell of which is the recorded predecessor of the next |
| Solver.DpCostAchieved | server.js:65-98 | The reconstructed path to (r, c) scores exactly the DP cost of (r, c) |
| Solver.DpCostOptimal | server.js:65-80 | No legal path ending at (r, c) scores less than the DP cost of (r, c) |
| Solver.ScanMin | server.js:82-88 | The end-column scan with strict `<` returns a position of the minimum with every earlier position strictly larger |
| Solver.LeftmostMin | server.js:81-88 | The chosen end column is the leftmost minimum of the last DP row |
| Solver.AllFullPathsBounded | server.js:81-99 | The chosen end cost bounds every full legal path's score, strictly for paths ending left of the chosen column |
| Solver.ComputeOptimalPath | server.js:59-100 | `bestPath` is a full legal path, `bestScore` is its score, no full legal path scores less, every full legal path ending left of the chosen end column scores strictly more, and each cell of `bestPath` is the DP back-pointer of the next, so ties between predecessors go to the one scanned first |
| Names.TrimStart | server.js:236 | Drops exactly the leading white space: a suffix of the input, all cut characters white space, the result not starting with white space |
| Names.TrimEnd | server.js:236 | Drops exactly the trailing white space |
| Names.Trim | server.js:236 | `trim` returns a contiguous slice whose cut-away ends are all white space and which neither starts nor ends with white space |
| Names.Show | server.js:225-226 | The decimal rendering of a suffix number is non-empty |
| Names.ParseShow | server.js:225-226 | Parsing a rendered number gives the number back |
| Names.ShowInjective | server.js:225-226 | Distinct numbers render differently |
| Names.SuffixedInjective | server.js:225-226 | Distinct suffix numbers give distinct candidate names `name#i` |
| Names.FirstFree | server.js:224-226 | The search loop stops at the least i at or after its start with `name#i` free, and every candidate before it is taken |
| Names.EnsureUniqueName | server.js:221-227 | The result is held by no current player; a free name comes back unchanged; a taken one becomes `name#i` for the least free i ≥ 2 |
| Players.IndexOf | server.js:239 | `players.get`: the position found holds that id and is the first such; none is found exactly when the id is absent |
| Players.Put | server.js:230 | `players.set` keeps ids unique, adds the record and its id, and keeps every other record; a new id is appended last and a known one is replaced in place, as `Map` insertion order has it |
| Players.UniqueIdsCount | server.js:230 | A list with unique ids has as many distinct ids as records, as a `Map` keyed by id has |
| Players.Remove | server.js:284 | `players.delete` keeps exactly the records with other ids, and the remaining ids |
| Ranking.Eligible | server.js:196-197 | Holds exactly the `canPlay` players |
| Ranking.Finishers | server.js:196-197 | Holds exactly the `canPlay` players whose status is finished |
| Ranking.NonFinishers | server.js:203-205 | Holds exactly the `canPlay` players whose status is not finished |
| Ranking.EligibleCount | server.js:196-197 | A `canPlay` record occurs in the eligible list as often as in the input; any other record does not occur |
| Ranking.FinishersCount | server.js:196-197 | A finished `canPlay` record occurs among the finishers as often as in the input; any other record does not occur |
| Ranking.NonFinishersCount | server.js:203-204 | An unfinished `canPlay` record occurs among the non-finishers as often as in the input; any other record does not occur |
| Ranking.FiltersUnique | server.js:196-204 | With unique ids in the input, each filtered list has unique ids |
| Ranking.FiltersKeepOrder | server.js:196-204 | Each filtered list is a subsequence of the input: `filter` keeps connection order |
| Ranking.FinishersPartition | server.js:196-205 | Finishers and non-finishers together are the eligible players, counted with multiplicity |
| Ranking.Insert | server.js:198-201 | Inserting into a list sorted by (score, finishedAt) keeps it sorted and adds exactly the one record |
| Ranking.SortByRank | server.js:198-201 | The sorted finishers are ordered by score ascending, then finishedAt ascending, and are a permutation of the finishers |
| Ranking.Ranked | server.js:202 | Entry i of the ranked list has rank i + 1 and the id, name and score of the i-th sorted finisher |
| Ranking.Unrankeds | server.js:205 | Entry i of `nonClasse` has the id and name of the i-th non-finisher; `FiltersKeepOrder` states that these are in connection order |
| Ranking.RankingOrdered | server.js:196-202 | Ranks are 1..N in list order, scores never decrease, and a strictly lower score has a strictly better rank |
| Ranking.RankingTiesByFinish | server.js:198-202 | Among equal scores the entry listed first is the sorted finisher with the earlier (or equal) `finishedAt` |
| Ranking.RankingPartitions | server.js:191-205 | With unique ids, `finished` and `nonClasse` partition the `canPlay` players: together they hold every eligible id and no other, no id is in both, no id is listed twice in either, and their lengths add up to the number of eligible ids |
| Session.InitValid | server.js:102-112 | The initial state (Idle, no grid) satisfies the session invariant |
| Session.Lookup | server.js:262 | The record found for a connected id is in the registry and has that id |
| Session.StartPreparation | server.js:138-157 | `startPreparation` keeps the invariant and gives Preparing with the grid generated from the draws, no optimal result, both countdowns at their configured values, participants = the connected ids, and every record kept (id, name) with an empty path, score 0, no finishedAt, and `canPlay` / `waiting` exactly for participants, `spectator` otherwise |
| Session.StartPlaying | server.js:169-179 | `startPlaying` keeps the invariant and gives Playing with the play countdown reset, participants `playing` and everyone else `spectator`; nothing else changes |
| Session.EndGame | server.js:191-209 | `endGame` keeps the invariant and gives Ended holding the solver's result for the grid, emitting that result and the ranking of the players; nothing else changes |
| Session.ResetToIdle | server.js:211-219 | `resetToIdle` keeps the invariant and clears grid, optimal result and participants, resets both countdowns, and keeps every record (id, name) as a non-playing spectator with an empty path, score 0 and no finishedAt |
| Session.OnConnect | server.js:229-231 | A connection appends exactly the new spectator record with the default name after the existing records, so the list is in connection order, and changes nothing else |
| Session.MakeSpectator | server.js:240-246 | Renames the one player record at that position, makes it a non-playing spectator, keeps every other record and the session invariant |
| Session.OnJoin | server.js:235-249 | `join` acknowledges the trimmed request, or the default name when that is empty, if no current player holds it, and otherwise that name with `#i` for the least i ≥ 2 that is free; the name is held by no current player; only that player's name, status (spectator) and `canPlay` (false) change |
| Session.OnStart | server.js:251-254 | `start` is a no-op outside Idle. From Idle it has exactly the effect of `startPreparation` (the Preparing state described for `Session.StartPreparation`) |
| Session.OnReset | server.js:256-259 | `reset` is a no-op outside Idle. From Idle it has exactly the effect of `resetToIdle`: no grid, optimal result or participants, countdowns at their configured values, and every record (id, name) kept as a non-playing spectator with an empty path and score 0 |
| Session.OnTick | server.js:159-188 | A tick is a no-op in Idle and Ended. In Preparing and Playing it decrements the running countdown and changes nothing else. Reaching 0 in Preparing gives Playing with participants `playing`, everyone else `spectator`, and all other fields kept. Reaching 0 in Playing gives Ended holding the solver's result, emits that result and the ranking, and changes nothing else |
| Session.AcceptMove | server.js:273-280 | An accepted move appends exactly one cell, rescores from scratch (for a non-empty path, the old score plus one difference; on the first move, the cell's own value), marks finished with `now` exactly on the last row, and touches no other player |
| Session.OnMove | server.js:261-281 | A move is rejected with no state change unless the phase is Playing, the player exists, may play, has not finished, sent two numbers, and the extended path is legal within the rows; otherwise it has the accepted effect |
| Session.OnDisconnect | server.js:283-287 | `disconnect` removes exactly that player and its eligibility, and changes nothing else |
| Session.Step | server.js:229-288 | Every event keeps the invariant; the phase stays or advances one step along Idle → Preparing → Playing → Ended; only the end of Playing emits a report |
| Session.Run | server.js:229-288 | Any sequence of events keeps the invariant and never moves the phase backwards |
| Session.EndedIsFinal | server.js:256-259 | Once Ended, no sequence of events leaves Ended or changes the grid or the optimal result |
| Session.ReachablePathsLegal | server.js:261-281 | In every reachable state, every path has cell i on row i, in-range columns, neighbours at most one column apart, at most `rows` cells, and a score equal to its score from scratch |
| Session.OptimalNoWorseThanFinishers | server.js:191-202 | No ranked finisher scores below the optimal score |
| Scenarios.AdjacentMovesOnly | server.js:40-46 | From (0, 1) only columns 0–2 of row 1 are accepted; an empty path accepts any row-0 cell and nothing else |
| Scenarios.TwoByTwoOptimum | server.js:59-100 | On [[3, 1], [2, 5]] the four full paths score 4, 5, 2, 5, and the solver returns (0,1)→(1,0) with score 2 |
| Scenarios.PredecessorTieGoesLeft | server.js:68-76 | When two predecessors tie, the back-pointer names the one scanned first (column c − 1) |
| Scenarios.TieGoesLeftOnPath | server.js:59-100 | On [[1, 3, 1], [9, 2, 9]] the two paths (0,0)→(1,1) and (0,2)→(1,1) both score 2, and the solver returns the first |
| Scenarios.ReferenceStartsIdle | server.js:18-21 | The server's configuration (11 × 8 cells, 45 s and 60 s) is valid, holds 88 values, and its initial state is a valid Idle session with no players |

## Left out

- The Express, http and Socket.IO setup and `server.listen` (server.js:4-15, 290-293): transport, not game logic.
- `broadcastState`, `broadcastPlayers` and the initial `state` message to a new socket (server.js:114-136, 233): output only. The data they send is the session itself.
- `setInterval` / `clearInterval`: each callback is one `Tick`. Only the timer of the current phase runs, so a tick is dispatched on the phase.
- `Math.random`: replaced by the `picks` oracle. Uniformity of the shuffle and the floating-point rounding of `Math.floor(Math.random() * (i + 1))` are not modelled.
- `Date.now()`: replaced by the `now` parameter. Its monotonicity is not needed by any property here.
- JavaScript numbers in a move message: coordinates are integers or absent. A fractional column or `NaN` passes the server's `typeof` and range checks (server.js:267). Such values are not modelled.
- A `join` whose name is a non-string truthy value throws in `trim` (server.js:236). The name is modelled as an optional string, with a missing one standing for any falsy value.
- A `join` from an id with no record would throw at `p.status` (server.js:242). `Session.OnJoin` therefore requires the id to be connected, and `Session.Step` ignores such an event, which a real socket cannot send after it disconnects.
- The DP's back-pointer is stored as the predecessor column only, since its row is always the previous row. The `if (!prev)` skip (server.js:72) and the `if (bestEndRC)` test (server.js:90) can never fail once `rows, cols >= 1`, and are not modelled as branches.
- Ranking.SortByRank: the stability of `Array.prototype.sort` (equal keys keep connection order) is implemented by the insertion rule but not stated as a property.
- Display-name uniqueness is not a session invariant, because a new connection's default name (server.js:230) is not deduplicated. Only a `join` guarantees a fresh name.
- app.js in its entirety: browser rendering, sound and the client socket. It only mirrors the server.

=== FILE: grid_gen.dfy ===
/** Grid generation: `range`, `shuffle` and `makeGrid` of the game server.
    `Math.random` is replaced by an oracle `picks` whose entry `picks[i]` is
    the index `j` in `[0, i]` that the shuffle draws at step `i`. */
module GridGen {
  import opened Paths

  /** The values `1..n` in ascending order (`range(n).map(i => i + 1)`). */
  function Range1(n: nat): (s: seq<int>)
    ensures |s| == n
    ensures forall i :: 0 <= i < n ==> s[i] == i + 1
  {
    if n == 0 then [] else Range1(n - 1) + [n]
  }

  /** Each of `1..n` occurs exactly once in `Range1(n)`, and nothing else does. */
  lemma {:induction false} Range1Counts(n: nat, v: int)
    ensures multiset(Range1(n))[v] == if 1 <= v <= n then 1 else 0
  {
    if n > 0 {
      var r := Range1(n - 1);
      Range1Counts(n - 1, v);
      assert Range1(n) == r + [n];
      assert multiset(Range1(n)) == multiset(r) + multiset{n};
    }
  }

  /** The oracle draws of one shuffle of `n` values: the draw at step `i`
      (for `i` from `n - 1` down to 1) lies in `[0, i]`. */
  predicate ValidPicks(picks: seq<int>, n: int) {
    |picks| == n && forall i :: 0 < i < n ==> 0 <= picks[i] <= i
  }

  function Swap(a: seq<int>, i: int, j: int): (b: seq<int>)
    requires 0 <= i < |a| && 0 <= j < |a|
    ensures multiset(b) == multiset(a)
    ensures |b| == |a| && b[i] == a[j] && b[j] == a[i]
    ensures forall k :: 0 <= k < |a| && k != i && k != j ==> b[k] == a[k]
  {
    a[i := a[j]][j := a[i]]
  }

  /** The shuffle loop from step `i` down to step 1. */
  function ShuffleDown(a: seq<int>, picks: seq<int>, i: int): (b: seq<int>)
    requires ValidPicks(picks, |a|) && i < |a|
    ensures |b| == |a| && multiset(b) == multiset(a)
    decreases i
  {
    if i <= 0 then a else ShuffleDown(Swap(a, i, picks[i]), picks, i - 1)
  }

  /** `shuffle`: a Fisher-Yates pass over a copy of `a`. It only swaps
      elements, so the result is a permutation of `a`. */
  function Shuffle(a: seq<int>, picks: seq<int>): (b: seq<int>)
    requires ValidPicks(picks, |a|)
    ensures |b| == |a| && multiset(b) == multiset(a)
  {
    ShuffleDown(a, picks, |a| - 1)
  }

  /** Cuts `vals` into `rows` consecutive rows of `cols` values. */
  function Chunk(vals: seq<int>, rows: nat, cols: nat): (g: Grid)
    requires |vals| == rows * cols
    ensures WellShaped(g, rows, cols)
    decreases rows
  {
    if rows == 0 then []
    else
      assert |vals| == (rows - 1) * cols + cols;
      [vals[..cols]] + Chunk(vals[cols..], rows - 1, cols)
  }

  /** The values of `g`, row after row. */
  function Flatten(g: Grid): seq<int> {
    if |g| == 0 then [] else g[0] + Flatten(g[1..])
  }

  /** The chunks, read back row after row, give `vals` back. */
  lemma {:induction false} FlattenChunk(vals: seq<int>, rows: nat, cols: nat)
    requires |vals| == rows * cols
    ensures Flatten(Chunk(vals, rows, cols)) == vals
    decreases rows
  {
    if rows > 0 {
      assert |vals| == (rows - 1) * cols + cols;
      var g := Chunk(vals, rows, cols);
      assert g[1..] == Chunk(vals[cols..], rows - 1, cols);
      FlattenChunk(vals[cols..], rows - 1, cols);
      assert vals == vals[..cols] + vals[cols..];
    }
  }

  /** The row-major position of cell `(r, c)`: the value of `makeGrid`'s
      counter `k` when it fills that cell. */
  function RowMajor(rows: nat, cols: nat, r: nat, c: nat): (k: nat)
    requires r < rows && c < cols
    ensures k < rows * cols
  {
    assert r * cols <= (rows - 1) * cols;
    r * cols + c
  }

  /** Cell `(r, c)` of the chunked grid holds value number `RowMajor(r, c)`. */
  lemma {:induction false} ChunkAt(vals: seq<int>, rows: nat, cols: nat, r: nat, c: nat)
    requires |vals| == rows * cols && r < rows && c < cols
    ensures Chunk(vals, rows, cols)[r][c] == vals[RowMajor(rows, cols, r, c)]
    decreases rows
  {
    assert |vals| == (rows - 1) * cols + cols;
    if r > 0 {
      ChunkAt(vals[cols..], rows - 1, cols, r - 1, c);
      assert RowMajor(rows - 1, cols, r - 1, c) + cols == RowMajor(rows, cols, r, c);
    }
  }

  /** `makeGrid`: the values `1..rows*cols`, shuffled, laid out row-major. */
  function MakeGrid(rows: nat, cols: nat, picks: seq<int>): (g: Grid)
    requires ValidPicks(picks, rows * cols)
    ensures WellShaped(g, rows, cols)
  {
    Chunk(Shuffle(Range1(rows * cols), picks), rows, cols)
  }

  /** A grid whose values are exactly a permutation of `1..rows*cols`. */
  predicate IsPermutationGrid(g: Grid, rows: nat, cols: nat) {
    WellShaped(g, rows, cols) && multiset(Flatten(g)) == multiset(Range1(rows * cols))
  }

  /** A generated grid has the right shape, its flattened values are a
      permutation of `1..rows*cols`, and each of those values occurs exactly
      once (no other value occurs). */
  lemma MakeGridIsPermutation(rows: nat, cols: nat, picks: seq<int>)
    requires ValidPicks(picks, rows * cols)
    ensures IsPermutationGrid(MakeGrid(rows, cols, picks), rows, cols)
    ensures forall v :: multiset(Flatten(MakeGrid(rows, cols, picks)))[v]
                        == if 1 <= v <= rows * cols then 1 else 0
  {
    var vals := Shuffle(Range1(rows * cols), picks);
    FlattenChunk(vals, rows, cols);
    forall v
      ensures multiset(Flatten(MakeGrid(rows, cols, picks)))[v]
              == if 1 <= v <= rows * cols then 1 else 0
    {
      Range1Counts(rows * cols, v);
    }
  }

  /** Cell `(r, c)` of a generated grid holds the shuffled value at its
      row-major position. */
  lemma MakeGridAt(rows: nat, cols: nat, picks: seq<int>, r: nat, c: nat)
    requires ValidPicks(picks, rows * cols) && r < rows && c < cols
    ensures MakeGrid(rows, cols, picks)[r][c]
            == Shuffle(Range1(rows * cols), picks)[RowMajor(rows, cols, r, c)]
  {
    ChunkAt(Shuffle(Range1(rows * cols), picks), rows, cols, r, c);
  }
}

=== FILE: names.dfy ===
/** Player names: the `trim` applied to a requested name, the decimal
    rendering of the `#i` suffix, and `ensureUniqueName`. */
module Names {

  /** The characters JavaScript's `String.prototype.trim` removes: the
      white space and line terminator code points (tab to carriage return,
      space, no-break space, ogham space mark, the en quad to hair space
      block, line and paragraph separators, narrow no-break space, medium
      mathematical space, ideographic space and the byte order mark). */
  predicate IsJsSpace(ch: char) {
    var u := ch as int;
    || 0x9 <= u <= 0xD || u == 0x20 || u == 0xA0 || u == 0x1680
    || 0x2000 <= u <= 0x200A || u == 0x2028 || u == 0x2029 || u == 0x202F
    || u == 0x205F || u == 0x3000 || u == 0xFEFF
  }

  function TrimStart(s: string): (t: string)
    ensures |t| <= |s| && t == s[|s| - |t|..]
    ensures forall i :: 0 <= i < |s| - |t| ==> IsJsSpace(s[i])
    ensures |t| > 0 ==> !IsJsSpace(t[0])
  {
    if |s| > 0 && IsJsSpace(s[0]) then TrimStart(s[1..]) else s
  }

  function TrimEnd(s: string): (t: string)
    ensures |t| <= |s| && t == s[..|t|]
    ensures forall i :: |t| <= i < |s| ==> IsJsSpace(s[i])
    ensures |t| > 0 ==> !IsJsSpace(t[|t| - 1])
  {
    if |s| > 0 && IsJsSpace(s[|s| - 1]) then TrimEnd(s[..|s| - 1]) else s
  }

  /** `t` is the slice `s[a..b]` and everything outside it is white space. */
  predicate SliceBetweenSpaces(s: string, t: string, a: int, b: int) {
    0 <= a <= b <= |s| && t == s[a..b] &&
    (forall i :: 0 <= i < a ==> IsJsSpace(s[i])) &&
    (forall i :: b <= i < |s| ==> IsJsSpace(s[i]))
  }

  /** Cutting leading white space off `s` to get `u`, then trailing white
      space off `u` to get `t`, leaves `t` as the slice of `s` between the
      two cuts, with no white space at either end. */
  lemma TrimmedSlice(s: string, u: string, t: string)
    requires |u| <= |s| && u == s[|s| - |u|..]
    requires forall i :: 0 <= i < |s| - |u| ==> IsJsSpace(s[i])
    requires |u| > 0 ==> !IsJsSpace(u[0])
    requires |t| <= |u| && t == u[..|t|]
    requires forall i :: |t| <= i < |u| ==> IsJsSpace(u[i])
    requires |t| > 0 ==> !IsJsSpace(t[|t| - 1])
    ensures SliceBetweenSpaces(s, t, |s| - |u|, |s| - |u| + |t|)
    ensures |t| > 0 ==> !IsJsSpace(t[0])
  {
    var a := |s| - |u|;
    forall i | a + |t| <= i < |s| ensures IsJsSpace(s[i]) {
      assert s[i] == u[i - a];
    }
    if |t| > 0 {
      assert t[0] == u[0];
    }
  }

  /** `trim`: `s` without its leading and trailing white space. The result is
      a contiguous slice of `s`, everything cut away is white space, and the
      result neither starts nor ends with white space. */
  function Trim(s: string): (t: string)
    ensures exists a, b :: SliceBetweenSpaces(s, t, a, b)
    ensures |t| > 0 ==> !IsJsSpace(t[0]) && !IsJsSpace(t[|t| - 1])
  {
    var u := TrimStart(s);
    var t := TrimEnd(u);
    TrimmedSlice(s, u, t);
    t
  }

  function Digit(d: int): char
    requires 0 <= d < 10
  {
    "0123456789"[d]
  }

  function DigitValue(ch: char): int {
    ch as int - '0' as int
  }

  /** Decimal rendering of a natural number, as a template literal `${i}`
      renders it. */
  function Show(n: nat): (s: string)
    ensures |s| > 0
    decreases n
  {
    if n < 10 then [Digit(n)] else Show(n / 10) + [Digit(n % 10)]
  }

  /** Reads a string of decimal digits back as a number. */
  function Parse(s: string): int {
    if |s| == 0 then 0 else 10 * Parse(s[..|s| - 1]) + DigitValue(s[|s| - 1])
  }

  /** Parsing undoes rendering, so distinct numbers render differently. */
  lemma {:induction false} ParseShow(n: nat)
    ensures Parse(Show(n)) == n
    decreases n
  {
    var s := Show(n);
    if n >= 10 {
      ParseShow(n / 10);
      assert s[..|s| - 1] == Show(n / 10);
    }
  }

  lemma ShowInjective(m: nat, n: nat)
    ensures Show(m) == Show(n) ==> m == n
  {
    ParseShow(m);
    ParseShow(n);
  }

  /** The candidate name `name#i`. */
  function Suffixed(name: string, i: nat): string {
    name + "#" + Show(i)
  }

  lemma SuffixedInjective(name: string, i: nat, j: nat)
    ensures Suffixed(name, i) == Suffixed(name, j) ==> i == j
  {
    if Suffixed(name, i) == Suffixed(name, j) {
      var k := |name| + 1;
      assert Suffixed(name, i)[k..] == Show(i);
      assert Suffixed(name, j)[k..] == Show(j);
      ShowInjective(i, j);
    }
  }

  /** The candidates `name#2` .. `name#(i-1)`. */
  function Candidates(name: string, i: nat): (cs: set<string>)
    ensures forall j :: 2 <= j < i ==> Suffixed(name, j) in cs
    ensures forall x :: x in cs ==> exists j :: 2 <= j < i && x == Suffixed(name, j)
    ensures |cs| == if i <= 2 then 0 else i - 2
    decreases i
  {
    if i <= 2 then {}
    else
      var cs := Candidates(name, i - 1);
      assert Suffixed(name, i - 1) !in cs by {
        forall j | 2 <= j < i - 1 ensures Suffixed(name, j) != Suffixed(name, i - 1) {
          SuffixedInjective(name, j, i - 1);
        }
      }
      cs + {Suffixed(name, i - 1)}
  }

  lemma SubsetCard<T>(a: set<T>, b: set<T>)
    requires a <= b
    ensures |a| <= |b|
  {
    assert b == a + (b - a);
  }

  /** The search loop of `ensureUniqueName`: the least `j >= i` such that
      `name#j` is not taken, given that `name#2` .. `name#(i-1)` all are. */
  function FirstFree(name: string, taken: set<string>, i: nat): (j: nat)
    requires 2 <= i
    requires forall k :: 2 <= k < i ==> Suffixed(name, k) in taken
    ensures i <= j && Suffixed(name, j) !in taken
    ensures forall k :: 2 <= k < j ==> Suffixed(name, k) in taken
    decreases |taken| + 2 - i
  {
    SubsetCard(Candidates(name, i), taken);
    if Suffixed(name, i) !in taken then i
    else
      SubsetCard(Candidates(name, i + 1), taken);
      FirstFree(name, taken, i + 1)
  }

  /** `ensureUniqueName`: a name no current player holds. A free `name` comes
      back unchanged; a taken one becomes `name#i` for the least `i >= 2`
      that is free. */
  function EnsureUniqueName(name: string, taken: set<string>): (n: string)
    ensures n !in taken
    ensures name !in taken ==> n == name
    ensures name in taken ==>
              exists i :: 2 <= i && n == Suffixed(name, i) &&
                          forall k :: 2 <= k < i ==> Suffixed(name, k) in taken
  {
    if name !in taken then name else Suffixed(name, FirstFree(name, taken, 2))
  }
}

=== FILE: paths.dfy ===
/** Cells, grids and paths: the move rule (`canMove`) and the path score
    (`computeScore`) of the game server. */
module Paths {

  /** A cell reference: row `r` and column `c`, both 0-indexed. */
  datatype Cell = Cell(r: int, c: int)

  /** A grid of cell values, indexed `g[row][col]`. */
  type Grid = seq<seq<int>>

  function Abs(x: int): nat {
    if x < 0 then -x else x
  }

  /** `g` has `rows` rows of `cols` values each. */
  predicate WellShaped(g: Grid, rows: int, cols: int) {
    |g| == rows && forall r :: 0 <= r < |g| ==> |g[r]| == cols
  }

  predicate InGrid(g: Grid, cell: Cell) {
    0 <= cell.r < |g| && 0 <= cell.c < |g[cell.r]|
  }

  /** Every cell of `path` lies inside `g`. */
  predicate OnGrid(g: Grid, path: seq<Cell>) {
    forall i :: 0 <= i < |path| ==> InGrid(g, path[i])
  }

  function At(g: Grid, cell: Cell): int
    requires InGrid(g, cell)
  {
    g[cell.r][cell.c]
  }

  predicate InRange(cell: Cell, rows: int, cols: int) {
    0 <= cell.r < rows && 0 <= cell.c < cols
  }

  /** The move rule: the first cell must be on row 0; every later cell is on
      the next row, at most one column away from the previous cell. The
      column range is not checked here; the move handler does that. */
  predicate CanMove(path: seq<Cell>, to: Cell) {
    if |path| == 0 then to.r == 0
    else to.r == path[|path| - 1].r + 1 && Abs(to.c - path[|path| - 1].c) <= 1
  }

  /** The path invariant, stated independently of `CanMove`: cell `i` is on
      row `i` within the columns, and consecutive cells are at most one
      column apart. */
  predicate LegalPath(path: seq<Cell>, cols: int) {
    && (forall i :: 0 <= i < |path| ==> path[i].r == i && 0 <= path[i].c < cols)
    && (forall i :: 0 < i < |path| ==> Abs(path[i].c - path[i - 1].c) <= 1)
  }

  /** A legal path that reaches the last row. */
  predicate FullPath(path: seq<Cell>, rows: int, cols: int) {
    |path| == rows && LegalPath(path, cols)
  }

  lemma LegalPathOnGrid(g: Grid, rows: int, cols: int, path: seq<Cell>)
    requires WellShaped(g, rows, cols)
    requires LegalPath(path, cols) && |path| <= rows
    ensures OnGrid(g, path)
  {
  }

  lemma LegalPathPrefix(path: seq<Cell>, cols: int, k: nat)
    requires LegalPath(path, cols) && k <= |path|
    ensures LegalPath(path[..k], cols)
  {
  }

  /** An accepted move (CanMove plus the handler's range check) keeps a legal
      path legal, and every legal one-cell extension inside the grid is an
      accepted move. */
  lemma CanMoveKeepsLegal(path: seq<Cell>, to: Cell, rows: int, cols: int)
    requires LegalPath(path, cols)
    ensures CanMove(path, to) && InRange(to, rows, cols)
            <==> LegalPath(path + [to], cols) && to.r < rows
  {
    var q := path + [to];
    if LegalPath(q, cols) && to.r < rows {
      assert q[|path|] == to;
      if |path| > 0 {
        assert q[|path| - 1] == path[|path| - 1];
      }
    }
    if CanMove(path, to) && InRange(to, rows, cols) {
      forall i | 0 <= i < |q|
        ensures q[i].r == i && 0 <= q[i].c < cols
      {
        if i < |path| { assert q[i] == path[i]; }
      }
      forall i | 0 < i < |q|
        ensures Abs(q[i].c - q[i - 1].c) <= 1
      {
        if i < |path| { assert q[i] == path[i] && q[i - 1] == path[i - 1]; }
      }
    }
  }

  /** The scoring loop of `computeScore`: from index `i` on, add the absolute
      difference between each cell's value and its predecessor's to `acc`. */
  function ScoreFrom(g: Grid, path: seq<Cell>, i: nat, acc: int): (r: int)
    requires OnGrid(g, path) && 1 <= i <= |path|
    ensures acc <= r
    decreases |path| - i
  {
    if i == |path| then acc
    else ScoreFrom(g, path, i + 1, acc + Abs(At(g, path[i]) - At(g, path[i - 1])))
  }

  /** `computeScore`: 0 for the empty path; otherwise the first cell's own
      value plus the absolute differences along the path. */
  function ComputeScore(g: Grid, path: seq<Cell>): (r: int)
    requires OnGrid(g, path)
    ensures |path| == 0 ==> r == 0
    ensures |path| > 0 ==> At(g, path[0]) <= r
  {
    if |path| == 0 then 0 else ScoreFrom(g, path, 1, At(g, path[0]))
  }

  lemma {:induction false} ScoreFromAppend(g: Grid, path: seq<Cell>, x: Cell, i: nat, acc: int)
    requires OnGrid(g, path) && InGrid(g, x) && 1 <= i <= |path|
    ensures OnGrid(g, path + [x])
    ensures ScoreFrom(g, path + [x], i, acc)
            == ScoreFrom(g, path, i, acc) + Abs(At(g, x) - At(g, path[|path| - 1]))
    decreases |path| - i
  {
    var q := path + [x];
    assert forall k :: 0 <= k < |path| ==> q[k] == path[k];
    assert q[|path|] == x;
    if i == |path| {
    } else {
      assert q[i] == path[i] && q[i - 1] == path[i - 1];
      ScoreFromAppend(g, path, x, i + 1, acc + Abs(At(g, path[i]) - At(g, path[i - 1])));
    }
  }

  /** Incremental scoring agrees with scoring from scratch: appending a cell
      to a non-empty path adds exactly the absolute difference between the
      new cell's value and the previous last cell's. */
  lemma ComputeScoreAppend(g: Grid, path: seq<Cell>, x: Cell)
    requires OnGrid(g, path) && InGrid(g, x) && |path| > 0
    ensures OnGrid(g, path + [x])
    ensures ComputeScore(g, path + [x])
            == ComputeScore(g, path) + Abs(At(g, x) - At(g, path[|path| - 1]))
  {
    ScoreFromAppend(g, path, x, 1, At(g, path[0]));
    assert (path + [x])[0] == path[0];
  }

  /** The score of a one-cell path is that cell's value. */
  lemma ComputeScoreSingle(g: Grid, x: Cell)
    requires InGrid(g, x)
    ensures OnGrid(g, [x]) && ComputeScore(g, [x]) == At(g, x)
  {
  }

  /** On every prefix of a path, the score of the next prefix is the score of
      this one plus one difference. */
  lemma ComputeScorePrefix(g: Grid, path: seq<Cell>, k: nat)
    requires OnGrid(g, path) && 1 <= k < |path|
    ensures OnGrid(g, path[..k]) && OnGrid(g, path[..k + 1])
    ensures ComputeScore(g, path[..k + 1])
            == ComputeScore(g, path[..k]) + Abs(At(g, path[k]) - At(g, path[k - 1]))
  {
    assert path[..k + 1] == path[..k] + [path[k]];
    ComputeScoreAppend(g, path[..k], path[k]);
  }
}

=== FILE: players.dfy ===
/** The player registry: one record per connected socket, kept in
    connection order (the iteration order of the server's `players` map). */
module Players {
  import opened Wrappers
  import opened Paths

  /** A connection (socket) id. */
  type Id = string

  datatype Status = Spectator | Waiting | Playing | Finished

  /** A player record. `finishedAt` is the clock reading taken when the
      player reached the last row. */
  datatype Player = Player(id: Id, name: string, canPlay: bool, status: Status,
                           path: seq<Cell>, score: int, finishedAt: Option<int>)

  predicate UniqueIds(ps: seq<Player>) {
    forall i, j :: 0 <= i < j < |ps| ==> ps[i].id != ps[j].id
  }

  function Ids(ps: seq<Player>): set<Id> {
    set p | p in ps :: p.id
  }

  function NamesOf(ps: seq<Player>): set<string> {
    set p | p in ps :: p.name
  }

  /** Position of the player with id `id`, if any (`players.get`). */
  function IndexOf(ps: seq<Player>, id: Id): (k: Option<nat>)
    ensures k.Some? ==> k.value < |ps| && ps[k.value].id == id
    ensures k.Some? ==> forall j :: 0 <= j < k.value ==> ps[j].id != id
    ensures k.None? <==> id !in Ids(ps)
  {
    if |ps| == 0 then None
    else if ps[0].id == id then Some(0)
    else
      var k := IndexOf(ps[1..], id);
      assert Ids(ps) == {ps[0].id} + Ids(ps[1..]) by {
        assert forall p :: p in ps <==> p == ps[0] || p in ps[1..];
      }
      if k.None? then None else Some(k.value + 1)
  }

  /** The default display name `Joueur-` followed by the first four
      characters of the id. */
  function DefaultName(id: Id): string {
    "Joueur-" + (if |id| <= 4 then id else id[..4])
  }

  /** The record a new connection gets: a spectator with an empty path. */
  function Newcomer(id: Id): Player {
    Player(id, DefaultName(id), false, Spectator, [], 0, None)
  }

  /** `players.set(p.id, p)`: replaces the record with that id in place, or
      appends it when the id is new. Nothing else changes. */
  function Put(ps: seq<Player>, p: Player): (r: seq<Player>)
    requires UniqueIds(ps)
    ensures UniqueIds(r) && p in r
    ensures Ids(r) == Ids(ps) + {p.id}
    ensures forall q :: q in r ==> q == p || (q in ps && q.id != p.id)
    ensures forall q :: q in ps && q.id != p.id ==> q in r
    ensures p.id !in Ids(ps) ==> r == ps + [p]
    ensures p.id in Ids(ps) ==>
              |r| == |ps| &&
              forall i :: 0 <= i < |ps| ==> r[i] == if ps[i].id == p.id then p else ps[i]
  {
    var k := IndexOf(ps, p.id);
    if k.None? then ps + [p]
    else
      var r := ps[k.value := p];
      assert r[k.value] == p;
      assert forall q :: q in r ==> q == p || (q in ps && q.id != p.id) by {
        forall q | q in r ensures q == p || (q in ps && q.id != p.id) {
          var i :| 0 <= i < |r| && r[i] == q;
          if i != k.value { assert ps[i] == q; }
        }
      }
      assert forall q :: q in ps && q.id != p.id ==> q in r by {
        forall q | q in ps && q.id != p.id ensures q in r {
          var i :| 0 <= i < |ps| && ps[i] == q;
          assert r[i] == q;
        }
      }
      r
  }

  lemma UniqueTail(ps: seq<Player>)
    requires UniqueIds(ps) && |ps| > 0
    ensures UniqueIds(ps[1..])
    ensures forall q :: q in ps[1..] ==> q.id != ps[0].id
  {
    var t := ps[1..];
    forall i, j | 0 <= i < j < |t| ensures t[i].id != t[j].id {
      assert t[i] == ps[i + 1] && t[j] == ps[j + 1];
    }
    forall q | q in t ensures q.id != ps[0].id {
      var i :| 0 <= i < |t| && t[i] == q;
      assert ps[i + 1] == q;
    }
  }

  lemma UniqueCons(p: Player, t: seq<Player>)
    requires UniqueIds(t) && forall q :: q in t ==> q.id != p.id
    ensures UniqueIds([p] + t)
  {
    var u := [p] + t;
    forall i, j | 0 <= i < j < |u| ensures u[i].id != u[j].id {
      assert u[j] == t[j - 1] && u[j] in t;
      if i > 0 { assert u[i] == t[i - 1]; }
    }
  }

  /** Keeping `ps[0]` in front of a selection `rest` from `ps[1..]` keeps
      ids unique when they were unique in `ps`. */
  lemma ConsSelectionUnique(ps: seq<Player>, rest: seq<Player>)
    requires |ps| > 0
    requires forall q :: q in rest ==> q in ps[1..]
    requires UniqueIds(ps[1..]) ==> UniqueIds(rest)
    ensures UniqueIds(ps) ==> UniqueIds(rest) && UniqueIds([ps[0]] + rest)
  {
    if UniqueIds(ps) {
      UniqueTail(ps);
      UniqueCons(ps[0], rest);
    }
  }

  /** With unique ids there are exactly as many ids as records. */
  lemma {:induction false} UniqueIdsCount(ps: seq<Player>)
    requires UniqueIds(ps)
    ensures |Ids(ps)| == |ps|
  {
    if |ps| > 0 {
      UniqueTail(ps);
      UniqueIdsCount(ps[1..]);
      assert Ids(ps) == {ps[0].id} + Ids(ps[1..]) by {
        assert forall q :: q in ps <==> q == ps[0] || q in ps[1..];
      }
      assert ps[0].id !in Ids(ps[1..]);
    }
  }

  /** `players.delete(id)`: drops the record with that id, keeping the order
      of the others. */
  function Remove(ps: seq<Player>, id: Id): (r: seq<Player>)
    requires UniqueIds(ps)
    ensures UniqueIds(r) && |r| <= |ps|
    ensures forall q :: q in r <==> q in ps && q.id != id
    ensures Ids(r) == Ids(ps) - {id}
  {
    if |ps| == 0 then []
    else
      UniqueTail(ps);
      var rest := Remove(ps[1..], id);
      assert forall q :: q in ps <==> q == ps[0] || q in ps[1..];
      if ps[0].id == id then rest
      else
        UniqueCons(ps[0], rest);
        [ps[0]] + rest
  }
}

=== FILE: ranking.dfy ===
/** The end-of-game ranking built by `endGame`: finishers sorted by score and
    then by finishing time, and the unranked (`nonClasse`) players. */
module Ranking {
  import opened Wrappers
  import opened Players

  datatype RankEntry = RankEntry(rank: int, id: Id, name: string, score: int)

  datatype Unranked = Unranked(id: Id, name: string)

  datatype Standings = Standings(finished: seq<RankEntry>, nonClasse: seq<Unranked>)

  /** The tie-break key `finishedAt || 0`. */
  function TieKey(p: Player): int {
    p.finishedAt.GetOr(0)
  }

  /** The sort comparator: lower score first, then earlier finishing time. */
  predicate RanksNoLater(a: Player, b: Player) {
    a.score < b.score || (a.score == b.score && TieKey(a) <= TieKey(b))
  }

  predicate SortedByRank(ps: seq<Player>) {
    forall i, j :: 0 <= i < j < |ps| ==> RanksNoLater(ps[i], ps[j])
  }

  predicate IsFinisher(p: Player) {
    p.canPlay && p.status == Finished
  }

  /** The players eligible to play, in connection order. */
  function Eligible(ps: seq<Player>): (r: seq<Player>)
    ensures forall p :: p in r <==> p in ps && p.canPlay
  {
    if |ps| == 0 then []
    else
      assert forall p :: p in ps <==> p == ps[0] || p in ps[1..];
      (if ps[0].canPlay then [ps[0]] else []) + Eligible(ps[1..])
  }

  /** `filter(p => p.canPlay && p.status === 'finished')`. */
  function Finishers(ps: seq<Player>): (r: seq<Player>)
    ensures forall p :: p in r <==> p in ps && IsFinisher(p)
  {
    if |ps| == 0 then []
    else
      assert forall p :: p in ps <==> p == ps[0] || p in ps[1..];
      (if IsFinisher(ps[0]) then [ps[0]] else []) + Finishers(ps[1..])
  }

  /** `filter(p => p.canPlay && p.status !== 'finished')`. */
  function NonFinishers(ps: seq<Player>): (r: seq<Player>)
    ensures forall p :: p in r <==> p in ps && p.canPlay && !IsFinisher(p)
  {
    if |ps| == 0 then []
    else
      assert forall p :: p in ps <==> p == ps[0] || p in ps[1..];
      (if ps[0].canPlay && !IsFinisher(ps[0]) then [ps[0]] else []) + NonFinishers(ps[1..])
  }

  /** Each filter keeps every record it selects exactly as often as it occurs
      in `ps`, and no other record. */
  lemma {:induction false} EligibleCount(ps: seq<Player>, p: Player)
    ensures multiset(Eligible(ps))[p] == if p.canPlay then multiset(ps)[p] else 0
  {
    if |ps| > 0 {
      EligibleCount(ps[1..], p);
      var head := if ps[0].canPlay then [ps[0]] else [];
      assert multiset(Eligible(ps)) == multiset(head) + multiset(Eligible(ps[1..]));
      assert multiset(ps) == multiset{ps[0]} + multiset(ps[1..]) by {
        assert ps == [ps[0]] + ps[1..];
      }
    }
  }

  lemma {:induction false} FinishersCount(ps: seq<Player>, p: Player)
    ensures multiset(Finishers(ps))[p] == if IsFinisher(p) then multiset(ps)[p] else 0
  {
    if |ps| > 0 {
      FinishersCount(ps[1..], p);
      var head := if IsFinisher(ps[0]) then [ps[0]] else [];
      assert multiset(Finishers(ps)) == multiset(head) + multiset(Finishers(ps[1..]));
      assert multiset(ps) == multiset{ps[0]} + multiset(ps[1..]) by {
        assert ps == [ps[0]] + ps[1..];
      }
    }
  }

  lemma {:induction false} NonFinishersCount(ps: seq<Player>, p: Player)
    ensures multiset(NonFinishers(ps))[p] ==
              if p.canPlay && !IsFinisher(p) then multiset(ps)[p] else 0
  {
    if |ps| > 0 {
      NonFinishersCount(ps[1..], p);
      var head := if ps[0].canPlay && !IsFinisher(ps[0]) then [ps[0]] else [];
      assert multiset(NonFinishers(ps)) == multiset(head) + multiset(NonFinishers(ps[1..]));
      assert multiset(ps) == multiset{ps[0]} + multiset(ps[1..]) by {
        assert ps == [ps[0]] + ps[1..];
      }
    }
  }

  /** The filters keep ids unique: no player is listed twice. */
  lemma {:induction false} FiltersUnique(ps: seq<Player>)
    requires UniqueIds(ps)
    ensures UniqueIds(Eligible(ps))
    ensures UniqueIds(Finishers(ps))
    ensures UniqueIds(NonFinishers(ps))
  {
    if |ps| > 0 {
      UniqueTail(ps);
      FiltersUnique(ps[1..]);
      ConsSelectionUnique(ps, Eligible(ps[1..]));
      ConsSelectionUnique(ps, Finishers(ps[1..]));
      ConsSelectionUnique(ps, NonFinishers(ps[1..]));
    }
  }

  /** `a` is `b` with some records left out: the records of `a` occur in `b`
      in the same order. */
  predicate Subsequence(a: seq<Player>, b: seq<Player>)
    decreases |b|
  {
    || |a| == 0
    || (|b| > 0 && ((a[0] == b[0] && Subsequence(a[1..], b[1..])) || Subsequence(a, b[1..])))
  }

  /** The filters keep connection order. */
  lemma {:induction false} FiltersKeepOrder(ps: seq<Player>)
    ensures Subsequence(Eligible(ps), ps)
    ensures Subsequence(Finishers(ps), ps)
    ensures Subsequence(NonFinishers(ps), ps)
  {
    if |ps| > 0 {
      FiltersKeepOrder(ps[1..]);
      var e := Eligible(ps);
      if ps[0].canPlay {
        assert e[0] == ps[0] && e[1..] == Eligible(ps[1..]);
      } else {
        assert e == Eligible(ps[1..]);
      }
      var f := Finishers(ps);
      if IsFinisher(ps[0]) {
        assert f[0] == ps[0] && f[1..] == Finishers(ps[1..]);
      } else {
        assert f == Finishers(ps[1..]);
      }
      var n := NonFinishers(ps);
      if ps[0].canPlay && !IsFinisher(ps[0]) {
        assert n[0] == ps[0] && n[1..] == NonFinishers(ps[1..]);
      } else {
        assert n == NonFinishers(ps[1..]);
      }
    }
  }

  /** Finishers and non-finishers together are exactly the eligible players,
      counted with multiplicity. */
  lemma {:induction false} FinishersPartition(ps: seq<Player>)
    ensures multiset(Finishers(ps)) + multiset(NonFinishers(ps)) == multiset(Eligible(ps))
  {
    if |ps| > 0 {
      FinishersPartition(ps[1..]);
    }
  }

  lemma SortedCons(x: Player, t: seq<Player>)
    requires SortedByRank(t)
    requires forall q :: q in t ==> RanksNoLater(x, q)
    ensures SortedByRank([x] + t)
  {
    var u := [x] + t;
    forall i, j | 0 <= i < j < |u| ensures RanksNoLater(u[i], u[j]) {
      assert u[j] == t[j - 1];
      if i > 0 { assert u[i] == t[i - 1]; }
    }
  }

  lemma SortedParts(s: seq<Player>)
    requires SortedByRank(s) && |s| > 0
    ensures SortedByRank(s[1..])
    ensures forall q :: q in s ==> RanksNoLater(s[0], q)
  {
    var t := s[1..];
    forall i, j | 0 <= i < j < |t| ensures RanksNoLater(t[i], t[j]) {
      assert t[i] == s[i + 1] && t[j] == s[j + 1];
    }
    forall q | q in s ensures RanksNoLater(s[0], q) {
      var i :| 0 <= i < |s| && s[i] == q;
      if i > 0 { assert RanksNoLater(s[0], s[i]); }
    }
  }

  /** Inserts `p` after every element that ranks no later than it, which keeps
      the sort stable. */
  function Insert(p: Player, s: seq<Player>): (r: seq<Player>)
    requires SortedByRank(s)
    ensures SortedByRank(r)
    ensures multiset(r) == multiset(s) + multiset{p}
  {
    if |s| == 0 then [p]
    else if p.score < s[0].score || (p.score == s[0].score && TieKey(p) < TieKey(s[0])) then
      InsertFront(p, s);
      [p] + s
    else
      SortedParts(s);
      var rest := Insert(p, s[1..]);
      InsertBehind(p, s, rest);
      [s[0]] + rest
  }

  /** A record that ranks strictly before the head of a sorted list may go
      in front of it. */
  lemma InsertFront(p: Player, s: seq<Player>)
    requires SortedByRank(s) && |s| > 0
    requires p.score < s[0].score || (p.score == s[0].score && TieKey(p) < TieKey(s[0]))
    ensures SortedByRank([p] + s)
  {
    SortedParts(s);
    SortedCons(p, s);
  }

  /** A record that does not rank before the head goes behind it: the head
      followed by the tail with the record inserted is sorted and holds one
      more record. */
  lemma InsertBehind(p: Player, s: seq<Player>, rest: seq<Player>)
    requires SortedByRank(s) && |s| > 0 && RanksNoLater(s[0], p)
    requires SortedByRank(rest) && multiset(rest) == multiset(s[1..]) + multiset{p}
    ensures SortedByRank([s[0]] + rest)
    ensures multiset([s[0]] + rest) == multiset(s) + multiset{p}
  {
    SortedParts(s);
    InsertHeadBound(p, s, rest);
    SortedCons(s[0], rest);
    assert s == [s[0]] + s[1..];
  }

  lemma InsertHeadBound(p: Player, s: seq<Player>, rest: seq<Player>)
    requires |s| > 0 && RanksNoLater(s[0], p)
    requires forall q :: q in s ==> RanksNoLater(s[0], q)
    requires multiset(rest) == multiset(s[1..]) + multiset{p}
    ensures forall q :: q in rest ==> RanksNoLater(s[0], q)
  {
    forall q | q in rest ensures RanksNoLater(s[0], q) {
      assert q in multiset(rest);
      if q != p {
        assert q in s[1..];
      }
    }
  }

  /** The `sort` of the finishers, written as an insertion sort. */
  function SortByRank(ps: seq<Player>): (r: seq<Player>)
    ensures SortedByRank(r)
    ensures multiset(r) == multiset(ps)
  {
    if |ps| == 0 then []
    else
      var init := ps[..|ps| - 1];
      assert ps == init + [ps[|ps| - 1]];
      Insert(ps[|ps| - 1], SortByRank(init))
  }

  /** The `map((p, i) => ({ rank: i + 1, ... }))` step. */
  function Ranked(sorted: seq<Player>): (r: seq<RankEntry>)
    ensures |r| == |sorted|
    ensures forall i :: 0 <= i < |r| ==>
              r[i] == RankEntry(i + 1, sorted[i].id, sorted[i].name, sorted[i].score)
  {
    seq(|sorted|, i requires 0 <= i < |sorted| =>
      RankEntry(i + 1, sorted[i].id, sorted[i].name, sorted[i].score))
  }

  function Unrankeds(ps: seq<Player>): (r: seq<Unranked>)
    ensures |r| == |ps|
    ensures forall i :: 0 <= i < |r| ==> r[i] == Unranked(ps[i].id, ps[i].name)
  {
    seq(|ps|, i requires 0 <= i < |ps| => Unranked(ps[i].id, ps[i].name))
  }

  /** The ranking part of `endGame`. */
  function EndRanking(ps: seq<Player>): Standings {
    Standings(Ranked(SortByRank(Finishers(ps))), Unrankeds(NonFinishers(ps)))
  }

  /** The ranked list is ordered: ranks are 1..N in list order, scores do not
      decrease, and a strictly lower score always has a strictly better
      rank. */
  lemma {:induction false} RankingOrdered(ps: seq<Player>)
    ensures var f := EndRanking(ps).finished;
      && (forall i :: 0 <= i < |f| ==> f[i].rank == i + 1)
      && (forall i, j :: 0 <= i < j < |f| ==> f[i].score <= f[j].score)
      && (forall i, j :: 0 <= i < |f| && 0 <= j < |f| && f[i].score < f[j].score ==>
            f[i].rank < f[j].rank)
  {
    var s := SortByRank(Finishers(ps));
    var f := Ranked(s);
    assert EndRanking(ps).finished == f;
    forall i, j | 0 <= j <= i < |f| ensures f[j].score <= f[i].score {
      if j < i {
        assert RanksNoLater(s[j], s[i]);
      }
    }
  }

  /** Among equal scores the earlier finisher comes first: the `finishedAt`
      tie-break of the comparator. */
  lemma {:induction false} RankingTiesByFinish(ps: seq<Player>)
    ensures var s := SortByRank(Finishers(ps));
      && |EndRanking(ps).finished| == |s|
      && forall i, j :: 0 <= i < j < |s| && s[i].score == s[j].score ==>
           EndRanking(ps).finished[i].id == s[i].id && TieKey(s[i]) <= TieKey(s[j])
  {
    var s := SortByRank(Finishers(ps));
    var f := Ranked(s);
    assert EndRanking(ps).finished == f;
    forall i, j | 0 <= i < j < |s| && s[i].score == s[j].score
      ensures f[i].id == s[i].id && TieKey(s[i]) <= TieKey(s[j])
    {
      assert RanksNoLater(s[i], s[j]);
    }
  }

  function EntryIds(f: seq<RankEntry>): set<Id> {
    set e | e in f :: e.id
  }

  function UnrankedIds(u: seq<Unranked>): set<Id> {
    set e | e in u :: e.id
  }

  lemma RankedIds(s: seq<Player>)
    ensures EntryIds(Ranked(s)) == Ids(s)
  {
    var f := Ranked(s);
    forall x | x in Ids(s) ensures x in EntryIds(f) {
      var p :| p in s && p.id == x;
      var i :| 0 <= i < |s| && s[i] == p;
      assert f[i].id == x;
    }
  }

  lemma UnrankedsIds(n: seq<Player>)
    ensures UnrankedIds(Unrankeds(n)) == Ids(n)
  {
    var u := Unrankeds(n);
    forall x | x in Ids(n) ensures x in UnrankedIds(u) {
      var p :| p in n && p.id == x;
      var i :| 0 <= i < |n| && n[i] == p;
      assert u[i].id == x;
    }
  }

  lemma PermutationIds(a: seq<Player>, b: seq<Player>)
    requires multiset(a) == multiset(b)
    ensures Ids(a) == Ids(b)
  {
    forall x | x in Ids(a) ensures x in Ids(b) {
      var p :| p in a && p.id == x;
      assert p in multiset(b);
    }
    forall x | x in Ids(b) ensures x in Ids(a) {
      var p :| p in b && p.id == x;
      assert p in multiset(a);
    }
  }

  lemma EligibleSplits(ps: seq<Player>)
    requires UniqueIds(ps)
    ensures Ids(Finishers(ps)) + Ids(NonFinishers(ps)) == Ids(Eligible(ps))
    ensures Ids(Finishers(ps)) !! Ids(NonFinishers(ps))
  {
    forall x | x in Ids(Eligible(ps))
      ensures x in Ids(Finishers(ps)) || x in Ids(NonFinishers(ps))
    {
      var p :| p in Eligible(ps) && p.id == x;
      if IsFinisher(p) { assert p in Finishers(ps); } else { assert p in NonFinishers(ps); }
    }
  }

  /** The two lists partition the eligible players: together they hold every
      eligible id and no other, no id is in both, no id appears twice in
      either, and their lengths add up to the number of eligible players. */
  lemma RankingPartitions(ps: seq<Player>)
    requires UniqueIds(ps)
    ensures var st := EndRanking(ps);
      && EntryIds(st.finished) + UnrankedIds(st.nonClasse) == Ids(Eligible(ps))
      && EntryIds(st.finished) !! UnrankedIds(st.nonClasse)
      && |EntryIds(st.finished)| == |st.finished|
      && |UnrankedIds(st.nonClasse)| == |st.nonClasse|
      && |st.finished| + |st.nonClasse| == |Eligible(ps)| == |Ids(Eligible(ps))|
  {
    var s := SortByRank(Finishers(ps));
    var n := NonFinishers(ps);
    FinishersPartition(ps);
    assert |s| + |n| == |Eligible(ps)| by {
      assert |multiset(s)| + |multiset(n)| == |multiset(Eligible(ps))|;
    }
    assert |s| == |Finishers(ps)| by {
      assert |multiset(s)| == |multiset(Finishers(ps))|;
    }
    FiltersUnique(ps);
    UniqueIdsCount(Eligible(ps));
    UniqueIdsCount(Finishers(ps));
    UniqueIdsCount(n);
    RankedIds(s);
    UnrankedsIds(n);
    PermutationIds(s, Finishers(ps));
    EligibleSplits(ps);
  }
}

=== FILE: scenarios.dfy ===
/** Worked instances of the move rule, the score and the solver on small
    grids. */
module Scenarios {
  import opened Wrappers
  import opened Paths
  import Solver
  import Session

  /** From cell (0, 1), the next cell may be in column 0, 1 or 2 of row 1;
      column 3 is too far, and a cell on row 0 again is not the next row. */
  lemma AdjacentMovesOnly()
    ensures CanMove([Cell(0, 1)], Cell(1, 0))
    ensures CanMove([Cell(0, 1)], Cell(1, 1))
    ensures CanMove([Cell(0, 1)], Cell(1, 2))
    ensures !CanMove([Cell(0, 1)], Cell(1, 3))
    ensures !CanMove([Cell(0, 1)], Cell(0, 2))
    ensures CanMove([], Cell(0, 7)) && !CanMove([], Cell(1, 0))
  {
  }

  /** On the grid [[3, 1], [2, 5]] the score counts the first cell's value:
      (0, 1) then (1, 0) scores 1 + |2 - 1| = 2, the least of the four full
      paths, and the solver returns exactly that path. */
  lemma TwoByTwoOptimum()
    ensures var g := [[3, 1], [2, 5]];
      && ComputeScore(g, [Cell(0, 0), Cell(1, 0)]) == 4
      && ComputeScore(g, [Cell(0, 0), Cell(1, 1)]) == 5
      && ComputeScore(g, [Cell(0, 1), Cell(1, 0)]) == 2
      && ComputeScore(g, [Cell(0, 1), Cell(1, 1)]) == 5
      && Solver.ComputeOptimalPath(g, 2, 2) == Solver.Optimal([Cell(0, 1), Cell(1, 0)], 2)
  {
    var g := [[3, 1], [2, 5]];
    assert WellShaped(g, 2, 2);
    var row0 := Solver.DpRow(g, 2, 2, 0);
    assert row0 == [Solver.Entry(3, None), Solver.Entry(1, None)];
    Solver.DpRowAt(g, 2, 2, 1, 0);
    Solver.DpRowAt(g, 2, 2, 1, 1);
    var row1 := Solver.DpRow(g, 2, 2, 1);
    assert row1[0] == Solver.Entry(2, Some(1));
    assert row1[1] == Solver.Entry(5, Some(0));
    assert Solver.LeftmostMin([2, 5]) == 0;
    assert Solver.Reconstruct(g, 2, 2, 1, 0) == [Cell(0, 1), Cell(1, 0)];
  }

  /** When two predecessors tie, the first in scan order (column c - 1
      before c before c + 1) is kept: on [[1, 3, 1], [9, 2, 9]] cell (1, 1)
      is reached from (0, 0) and from (0, 2) at the same cost, and its
      back-pointer names column 0. */
  lemma PredecessorTieGoesLeft()
    ensures var g := [[1, 3, 1], [9, 2, 9]];
      WellShaped(g, 2, 3) && Solver.DpRow(g, 2, 3, 1)[1] == Solver.Entry(2, Some(0))
  {
    var g := [[1, 3, 1], [9, 2, 9]];
    assert WellShaped(g, 2, 3);
    Solver.DpRowAt(g, 2, 3, 1, 1);
    assert Solver.DpRow(g, 2, 3, 0) == [Solver.Entry(1, None), Solver.Entry(3, None), Solver.Entry(1, None)];
  }

  /** The solver's path on that grid follows the back-pointer: of the two
      optimal paths (0, 0) → (1, 1) and (0, 2) → (1, 1), both scoring 2, it
      returns the first. */
  lemma TieGoesLeftOnPath()
    ensures var g := [[1, 3, 1], [9, 2, 9]];
      && WellShaped(g, 2, 3)
      && ComputeScore(g, [Cell(0, 2), Cell(1, 1)]) == 2
      && Solver.ComputeOptimalPath(g, 2, 3) == Solver.Optimal([Cell(0, 0), Cell(1, 1)], 2)
  {
    var g := [[1, 3, 1], [9, 2, 9]];
    assert WellShaped(g, 2, 3);
    PredecessorTieGoesLeft();
  }

  /** The server's own configuration, 11 × 8 cells with 45 and 60 second
      countdowns, is a valid one, and its initial state is a valid Idle
      session. */
  lemma ReferenceStartsIdle()
    ensures Session.Reference.Valid()
    ensures Session.Reference.rows * Session.Reference.cols == 88
    ensures var s := Session.Init(Session.Reference);
      Session.Valid(Session.Reference, s) && s.phase == Session.Idle && s.players == []
  {
    Session.InitValid(Session.Reference);
  }
}

=== FILE: session.dfy ===
/** The authoritative session: phases Idle -> Preparing -> Playing -> Ended,
    the phase functions `startPreparation`, `startPlaying`, `endGame` and
    `resetToIdle`, and the socket handlers `connection`, `join`, `start`,
    `reset`, `move` and `disconnect`, each as a pure transition. A timer
    callback is the explicit `Tick` event; `Date.now()` is the `now`
    argument of a move; `Math.random` is the `picks` argument of a start. */
module Session {
  import opened Wrappers
  import opened Paths
  import opened Players
  import GridGen
  import Solver
  import Names
  import Ranking

  /** Grid size and countdown lengths. */
  datatype Config = Config(rows: nat, cols: nat, prepSeconds: int, gameSeconds: int) {
    predicate Valid() {
      rows >= 1 && cols >= 1
    }
  }

  /** ROWS, COLS, PREP_SECONDS and GAME_SECONDS of the server. */
  const Reference := Config(11, 8, 45, 60)

  datatype Phase = Idle | Preparing | Playing | Ended

  datatype Session = Session(
    phase: Phase,
    grid: Option<Grid>,
    prepRemaining: int,
    gameRemaining: int,
    participants: set<Id>,
    players: seq<Player>,
    optimal: Option<Solver.Optimal>)

  /** What `endGame` emits as the `end` message. */
  datatype Report = Report(optimal: Solver.Optimal, standings: Ranking.Standings)

  /** A transition's new session and the `end` message it emitted, if any. */
  datatype Outcome = Outcome(session: Session, report: Option<Report>)

  /** The coordinates of a move; None where the message did not carry a number. */
  datatype MoveRequest = MoveRequest(r: Option<int>, c: Option<int>)

  /** The acknowledgement of a move. */
  datatype MoveAck = Rejected | Accepted(score: int, path: seq<Cell>)

  datatype Moved = Moved(session: Session, ack: MoveAck)

  datatype Joined = Joined(session: Session, name: string)

  /** The state the server starts in. */
  function Init(cfg: Config): Session {
    Session(Idle, None, cfg.prepSeconds, cfg.gameSeconds, {}, [], None)
  }

  /** What holds of every player record in every reachable state. */
  predicate PlayerValid(cfg: Config, grid: Option<Grid>, p: Player)
    requires grid.Some? ==> WellShaped(grid.value, cfg.rows, cfg.cols)
  {
    && LegalPath(p.path, cfg.cols) && |p.path| <= cfg.rows
    && (grid.None? ==> p.path == [] && p.score == 0)
    && (grid.Some? ==> OnGrid(grid.value, p.path) && p.score == ComputeScore(grid.value, p.path))
    && (p.status == Finished ==> |p.path| == cfg.rows && p.finishedAt.Some?)
  }

  /** The session invariant: there is a permutation grid exactly outside
      Idle, an optimal result exactly in Ended, ids are unique, and every
      player's path is legal and scored from scratch. */
  predicate Valid(cfg: Config, s: Session) {
    && cfg.Valid()
    && UniqueIds(s.players)
    && (s.phase == Idle <==> s.grid.None?)
    && (s.phase == Ended <==> s.optimal.Some?)
    && (s.grid.Some? ==> GridGen.IsPermutationGrid(s.grid.value, cfg.rows, cfg.cols))
    && forall p :: p in s.players ==> PlayerValid(cfg, s.grid, p)
  }

  lemma InitValid(cfg: Config)
    requires cfg.Valid()
    ensures Valid(cfg, Init(cfg)) && Init(cfg).phase == Idle && Init(cfg).grid.None?
  {
  }

  /** The record of the connected player `id`. */
  function Lookup(ps: seq<Player>, id: Id): (p: Player)
    requires id in Ids(ps)
    ensures p in ps && p.id == id
  {
    ps[IndexOf(ps, id).value]
  }

  /** `a` and `b` hold the same ids at the same positions. */
  predicate SameIds(a: seq<Player>, b: seq<Player>) {
    |a| == |b| && forall i :: 0 <= i < |a| ==> a[i].id == b[i].id
  }

  lemma SameIdsKeepUnique(a: seq<Player>, b: seq<Player>)
    requires SameIds(a, b) && UniqueIds(a)
    ensures UniqueIds(b) && Ids(b) == Ids(a)
  {
    forall x | x in Ids(a) ensures x in Ids(b) {
      var p :| p in a && p.id == x;
      var i :| 0 <= i < |a| && a[i] == p;
      assert b[i].id == x;
    }
    forall x | x in Ids(b) ensures x in Ids(a) {
      var p :| p in b && p.id == x;
      var i :| 0 <= i < |b| && b[i] == p;
      assert a[i].id == x;
    }
  }

  // ---------------------------------------------------------------------
  // Phase functions

  /** What `startPreparation` makes of an Idle session `s`: Preparing with
      the grid generated from `picks`, no optimal result, both countdowns
      at their configured values, every connected id a participant, and
      every record, name and id kept, with an empty path, score 0, no
      finish time, and `canPlay` / `waiting` exactly for participants. */
  predicate Prepared(cfg: Config, s: Session, picks: seq<int>, t: Session)
    requires GridGen.ValidPicks(picks, cfg.rows * cfg.cols)
  {
    && t.phase == Preparing
    && t.grid == Some(GridGen.MakeGrid(cfg.rows, cfg.cols, picks))
    && t.optimal.None?
    && t.prepRemaining == cfg.prepSeconds && t.gameRemaining == cfg.gameSeconds
    && t.participants == Ids(s.players)
    && |t.players| == |s.players|
    && forall i :: 0 <= i < |s.players| ==>
         t.players[i] == s.players[i].(path := [], score := 0, finishedAt := None,
                                       canPlay := s.players[i].id in t.participants,
                                       status := if s.players[i].id in t.participants
                                                 then Waiting else Spectator)
  }

  /** What `startPlaying` makes of `s`: Playing with the play countdown at
      its configured value, participants `playing` and everyone else a
      spectator; everything else, including every path, score and
      eligibility, stays as it was. */
  predicate PlayStarted(cfg: Config, s: Session, t: Session) {
    && t == s.(phase := Phase.Playing, gameRemaining := cfg.gameSeconds, players := t.players)
    && |t.players| == |s.players|
    && forall i :: 0 <= i < |s.players| ==>
         t.players[i] == s.players[i].(status := if s.players[i].id in s.participants
                                                 then Status.Playing else Spectator)
  }

  /** What `endGame` makes of `s`: Ended, holding the optimal path of the
      grid, with the `end` message carrying that path and the ranking of the
      players; nothing else changes. */
  predicate GameEnded(cfg: Config, s: Session, o: Outcome)
    requires cfg.Valid() && s.grid.Some? && WellShaped(s.grid.value, cfg.rows, cfg.cols)
  {
    && o.report.Some?
    && o.report.value.optimal == Solver.ComputeOptimalPath(s.grid.value, cfg.rows, cfg.cols)
    && o.report.value.standings == Ranking.EndRanking(s.players)
    && o.session == s.(phase := Ended, optimal := Some(o.report.value.optimal))
  }

  /** What `resetToIdle` makes of an Idle session `s`: no grid, no optimal
      result, no participants, both countdowns at their configured values,
      and every record, name and id kept, as a non-playing spectator with
      an empty path, score 0 and no finish time. */
  predicate BackToIdle(cfg: Config, s: Session, t: Session) {
    && t.phase == Idle && t.grid.None? && t.optimal.None? && t.participants == {}
    && t.prepRemaining == cfg.prepSeconds && t.gameRemaining == cfg.gameSeconds
    && |t.players| == |s.players|
    && forall i :: 0 <= i < |s.players| ==>
         t.players[i] == s.players[i].(path := [], score := 0, finishedAt := None,
                                       status := Spectator, canPlay := false)
  }

  /** The per-player part of `startPreparation`. */
  function PrepareRecords(ps: seq<Player>, part: set<Id>): (r: seq<Player>)
    ensures SameIds(ps, r)
  {
    seq(|ps|, i requires 0 <= i < |ps| =>
      ps[i].(path := [], score := 0, finishedAt := None,
             canPlay := ps[i].id in part,
             status := if ps[i].id in part then Waiting else Spectator))
  }

  /** `startPreparation`, from Idle: a fresh grid, no optimal result, both
      countdowns reset, every connected player a participant. */
  function StartPreparation(cfg: Config, s: Session, picks: seq<int>): (t: Session)
    requires Valid(cfg, s) && s.phase == Idle
    requires GridGen.ValidPicks(picks, cfg.rows * cfg.cols)
    ensures Valid(cfg, t)
    ensures Prepared(cfg, s, picks, t)
  {
    var part := Ids(s.players);
    var ps := PrepareRecords(s.players, part);
    SameIdsKeepUnique(s.players, ps);
    GridGen.MakeGridIsPermutation(cfg.rows, cfg.cols, picks);
    var g := GridGen.MakeGrid(cfg.rows, cfg.cols, picks);
    assert forall p :: p in ps ==> PlayerValid(cfg, Some(g), p) by {
      forall p | p in ps ensures PlayerValid(cfg, Some(g), p) {
        var i :| 0 <= i < |ps| && ps[i] == p;
      }
    }
    Session(Preparing, Some(g), cfg.prepSeconds, cfg.gameSeconds, part, ps, None)
  }

  /** The per-player part of `startPlaying`. */
  function PlayRecords(ps: seq<Player>, part: set<Id>): (r: seq<Player>)
    ensures SameIds(ps, r)
  {
    seq(|ps|, i requires 0 <= i < |ps| =>
      ps[i].(status := if ps[i].id in part then Status.Playing else Spectator))
  }

  /** `startPlaying`: participants become `playing`, everyone else a
      spectator; paths and eligibility are left as they are. */
  function StartPlaying(cfg: Config, s: Session): (t: Session)
    requires Valid(cfg, s) && s.phase == Preparing
    ensures Valid(cfg, t)
    ensures PlayStarted(cfg, s, t)
  {
    var ps := PlayRecords(s.players, s.participants);
    SameIdsKeepUnique(s.players, ps);
    assert forall p :: p in ps ==> PlayerValid(cfg, s.grid, p) by {
      forall p | p in ps ensures PlayerValid(cfg, s.grid, p) {
        var i :| 0 <= i < |ps| && ps[i] == p;
        assert s.players[i] in s.players;
      }
    }
    s.(phase := Phase.Playing, gameRemaining := cfg.gameSeconds, players := ps)
  }

  /** `endGame`: computes the optimal path and emits the ranking. */
  function EndGame(cfg: Config, s: Session): (o: Outcome)
    requires Valid(cfg, s) && s.phase == Phase.Playing
    ensures Valid(cfg, o.session)
    ensures GameEnded(cfg, s, o)
  {
    var g := s.grid.value;
    var best := Solver.ComputeOptimalPath(g, cfg.rows, cfg.cols);
    var st := Ranking.EndRanking(s.players);
    Outcome(s.(phase := Ended, optimal := Some(best)), Some(Report(best, st)))
  }

  /** The per-player part of `resetToIdle`. */
  function IdleRecords(ps: seq<Player>): (r: seq<Player>)
    ensures SameIds(ps, r)
  {
    seq(|ps|, i requires 0 <= i < |ps| =>
      ps[i].(path := [], score := 0, finishedAt := None, status := Spectator, canPlay := false))
  }

  /** `resetToIdle`, from Idle: no grid, no optimal result, no participants,
      countdowns reset, every player a spectator with an empty path. */
  function ResetToIdle(cfg: Config, s: Session): (t: Session)
    requires Valid(cfg, s) && s.phase == Idle
    ensures Valid(cfg, t)
    ensures BackToIdle(cfg, s, t)
  {
    var ps := IdleRecords(s.players);
    SameIdsKeepUnique(s.players, ps);
    Session(Idle, None, cfg.prepSeconds, cfg.gameSeconds, {}, ps, None)
  }

  // ---------------------------------------------------------------------
  // Event handlers

  /** A new socket: `players.set(id, ...)` with a default name, as a
      spectator. */
  function OnConnect(cfg: Config, s: Session, id: Id): (t: Session)
    requires Valid(cfg, s)
    ensures Valid(cfg, t)
    ensures t == s.(players := t.players)
    ensures Ids(t.players) == Ids(s.players) + {id}
    ensures Lookup(t.players, id) == Newcomer(id)
    ensures forall q :: q in s.players && q.id != id ==> q in t.players
    ensures id !in Ids(s.players) ==> t.players == s.players + [Newcomer(id)]
  {
    var ps := Put(s.players, Newcomer(id));
    assert Newcomer(id) in ps;
    assert forall q :: q in ps ==> PlayerValid(cfg, s.grid, q);
    s.(players := ps)
  }

  /** The session with player `k` renamed to `n` and made a spectator. */
  function MakeSpectator(cfg: Config, s: Session, k: int, n: string): (t: Session)
    requires Valid(cfg, s) && 0 <= k < |s.players|
    ensures Valid(cfg, t)
    ensures t == s.(players := t.players) && |t.players| == |s.players|
    ensures t.players[k] == s.players[k].(name := n, status := Spectator, canPlay := false)
    ensures forall i :: 0 <= i < |s.players| && i != k ==> t.players[i] == s.players[i]
  {
    var ps := s.players[k := s.players[k].(name := n, status := Spectator, canPlay := false)];
    SameIdsKeepUnique(s.players, ps);
    assert forall q :: q in ps ==> PlayerValid(cfg, s.grid, q) by {
      forall q | q in ps ensures PlayerValid(cfg, s.grid, q) {
        var i :| 0 <= i < |ps| && ps[i] == q;
        assert s.players[i] in s.players;
      }
    }
    s.(players := ps)
  }

  /** The `join` handler: trims the requested name (a missing one counts as
      empty), falls back to the default name, makes it unique among the
      connected players' names, and makes the player a spectator. */
  function OnJoin(cfg: Config, s: Session, id: Id, name: Option<string>): (j: Joined)
    requires Valid(cfg, s) && id in Ids(s.players)
    ensures Valid(cfg, j.session)
    ensures j.session == s.(players := j.session.players)
    ensures j.name !in NamesOf(s.players)
    ensures var t := if name.Some? then Names.Trim(name.value) else "";
            var n0 := if |t| == 0 then DefaultName(id) else t;
            && (n0 !in NamesOf(s.players) ==> j.name == n0)
            && (n0 in NamesOf(s.players) ==>
                  exists i :: 2 <= i && j.name == Names.Suffixed(n0, i) &&
                              forall k :: 2 <= k < i ==> Names.Suffixed(n0, k) in NamesOf(s.players))
    ensures var k := IndexOf(s.players, id).value;
      && |j.session.players| == |s.players|
      && j.session.players[k] == s.players[k].(name := j.name, status := Spectator, canPlay := false)
      && forall i :: 0 <= i < |s.players| && i != k ==> j.session.players[i] == s.players[i]
  {
    var t := if name.Some? then Names.Trim(name.value) else "";
    var n0 := if |t| == 0 then DefaultName(id) else t;
    var n := Names.EnsureUniqueName(n0, NamesOf(s.players));
    Joined(MakeSpectator(cfg, s, IndexOf(s.players, id).value, n), n)
  }

  /** The `start` handler: a no-op unless Idle. */
  function OnStart(cfg: Config, s: Session, picks: seq<int>): (t: Session)
    requires Valid(cfg, s) && GridGen.ValidPicks(picks, cfg.rows * cfg.cols)
    ensures Valid(cfg, t)
    ensures s.phase != Idle ==> t == s
    ensures s.phase == Idle ==> Prepared(cfg, s, picks, t)
  {
    if s.phase != Idle then s else StartPreparation(cfg, s, picks)
  }

  /** The `reset` handler: a no-op unless Idle. Nothing leads from Ended
      back to Idle. */
  function OnReset(cfg: Config, s: Session): (t: Session)
    requires Valid(cfg, s)
    ensures Valid(cfg, t)
    ensures s.phase != Idle ==> t == s
    ensures s.phase == Idle ==> BackToIdle(cfg, s, t)
  {
    if s.phase != Idle then s else ResetToIdle(cfg, s)
  }

  /** One timer callback: in Preparing and Playing the running countdown
      drops by one and, on reaching 0, the next phase begins; no timer runs
      in Idle or Ended. */
  function OnTick(cfg: Config, s: Session): (o: Outcome)
    requires Valid(cfg, s)
    ensures Valid(cfg, o.session)
    ensures s.phase == Idle || s.phase == Ended ==> o == Outcome(s, None)
    ensures s.phase == Preparing && s.prepRemaining - 1 > 0 ==>
              o == Outcome(s.(prepRemaining := s.prepRemaining - 1), None)
    ensures s.phase == Preparing && s.prepRemaining - 1 <= 0 ==>
              o.report.None? && PlayStarted(cfg, s.(prepRemaining := s.prepRemaining - 1), o.session)
    ensures s.phase == Phase.Playing && s.gameRemaining - 1 > 0 ==>
              o == Outcome(s.(gameRemaining := s.gameRemaining - 1), None)
    ensures s.phase == Phase.Playing && s.gameRemaining - 1 <= 0 ==>
              GameEnded(cfg, s.(gameRemaining := s.gameRemaining - 1), o)
  {
    match s.phase
    case Idle => Outcome(s, None)
    case Ended => Outcome(s, None)
    case Preparing =>
      var left := s.prepRemaining - 1;
      if left <= 0 then Outcome(StartPlaying(cfg, s.(prepRemaining := left)), None)
      else Outcome(s.(prepRemaining := left), None)
    case Playing =>
      var left := s.gameRemaining - 1;
      if left <= 0 then EndGame(cfg, s.(gameRemaining := left))
      else Outcome(s.(gameRemaining := left), None)
  }

  /** When a move is accepted, stated through the path invariant rather than
      through `CanMove`: Playing, a connected eligible player who has not
      finished, two numbers, and the extended path is legal and stays within
      the rows. */
  predicate MoveAccepted(cfg: Config, s: Session, id: Id, to: MoveRequest) {
    && s.phase == Phase.Playing
    && id in Ids(s.players)
    && var p := Lookup(s.players, id);
    && p.canPlay && p.status != Finished
    && to.r.Some? && to.c.Some?
    && to.r.value < cfg.rows
    && LegalPath(p.path + [Cell(to.r.value, to.c.value)], cfg.cols)
  }

  /** What an accepted move of the player at position `k` to `cell` does:
      it appends exactly that cell to the player's path, rescores the path
      from scratch (which equals the old score plus one difference), marks
      the player finished with time `now` exactly when the cell is on the
      last row, and changes no other player and nothing else. */
  predicate AcceptedEffect(cfg: Config, s: Session, k: nat, cell: Cell, now: int, m: Moved) {
    && k < |s.players| && |m.session.players| == |s.players|
    && s.grid.Some? && m.ack.Accepted?
    && var g := s.grid.value;
    && var p := s.players[k];
    && var q := m.session.players[k];
    && m.session == s.(players := m.session.players)
    && (forall i :: 0 <= i < |s.players| && i != k ==> m.session.players[i] == s.players[i])
    && q.id == p.id && q.name == p.name && q.canPlay == p.canPlay
    && q.path == p.path + [cell] && m.ack.path == q.path
    && OnGrid(g, q.path) && OnGrid(g, p.path) && InGrid(g, cell)
    && q.score == ComputeScore(g, q.path) && m.ack.score == q.score
    && (|p.path| > 0 ==> q.score == p.score + Abs(At(g, cell) - At(g, p.path[|p.path| - 1])))
    && (cell.r == cfg.rows - 1 ==> q.status == Finished && q.finishedAt == Some(now))
    && (cell.r != cfg.rows - 1 ==> q.status == p.status && q.finishedAt == p.finishedAt)
  }

  /** The accepting branch of the `move` handler for the player at position
      `k` and an in-range cell that `CanMove` allows. */
  function AcceptMove(cfg: Config, s: Session, k: nat, cell: Cell, now: int): (m: Moved)
    requires Valid(cfg, s) && s.phase == Phase.Playing && k < |s.players|
    requires InRange(cell, cfg.rows, cfg.cols) && CanMove(s.players[k].path, cell)
    ensures Valid(cfg, m.session)
    ensures AcceptedEffect(cfg, s, k, cell, now, m)
  {
    var p := s.players[k];
    var g := s.grid.value;
    assert PlayerValid(cfg, s.grid, p);
    CanMoveKeepsLegal(p.path, cell, cfg.rows, cfg.cols);
    var path := p.path + [cell];
    assert InGrid(g, cell);
    LegalPathOnGrid(g, cfg.rows, cfg.cols, path);
    assert |p.path| > 0 ==>
             ComputeScore(g, path)
             == ComputeScore(g, p.path) + Abs(At(g, cell) - At(g, p.path[|p.path| - 1])) by {
      if |p.path| > 0 { ComputeScoreAppend(g, p.path, cell); }
    }
    var last := cell.r == cfg.rows - 1;
    var q := p.(path := path, score := ComputeScore(g, path),
                status := if last then Finished else p.status,
                finishedAt := if last then Some(now) else p.finishedAt);
    assert PlayerValid(cfg, s.grid, q);
    var ps := s.players[k := q];
    SameIdsKeepUnique(s.players, ps);
    assert forall x :: x in ps ==> PlayerValid(cfg, s.grid, x) by {
      forall x | x in ps ensures PlayerValid(cfg, s.grid, x) {
        var i :| 0 <= i < |ps| && ps[i] == x;
        if i != k { assert s.players[i] in s.players; }
      }
    }
    Moved(s.(players := ps), Accepted(q.score, path))
  }

  /** The `move` handler. A move is rejected, changing nothing, unless
      `MoveAccepted` holds; an accepted move has `AcceptedEffect`. */
  function OnMove(cfg: Config, s: Session, id: Id, to: MoveRequest, now: int): (m: Moved)
    requires Valid(cfg, s)
    ensures Valid(cfg, m.session)
    ensures m.ack.Rejected? <==> !MoveAccepted(cfg, s, id, to)
    ensures m.ack.Rejected? ==> m.session == s
    ensures m.ack.Accepted? ==>
              && IndexOf(s.players, id).Some? && to.r.Some? && to.c.Some?
              && AcceptedEffect(cfg, s, IndexOf(s.players, id).value,
                                Cell(to.r.value, to.c.value), now, m)
  {
    var k := IndexOf(s.players, id);
    if k.None? || s.phase != Phase.Playing then Moved(s, Rejected)
    else
      var p := s.players[k.value];
      if !p.canPlay || p.status == Finished then Moved(s, Rejected)
      else if to.r.None? || to.c.None? then Moved(s, Rejected)
      else
        var cell := Cell(to.r.value, to.c.value);
        assert PlayerValid(cfg, s.grid, p);
        CanMoveKeepsLegal(p.path, cell, cfg.rows, cfg.cols);
        if !InRange(cell, cfg.rows, cfg.cols) then Moved(s, Rejected)
        else if !CanMove(p.path, cell) then Moved(s, Rejected)
        else AcceptMove(cfg, s, k.value, cell, now)
  }

  /** The `disconnect` handler: the player and its eligibility disappear. */
  function OnDisconnect(cfg: Config, s: Session, id: Id): (t: Session)
    requires Valid(cfg, s)
    ensures Valid(cfg, t)
    ensures t == s.(players := t.players, participants := s.participants - {id})
    ensures Ids(t.players) == Ids(s.players) - {id}
    ensures forall q :: q in t.players <==> q in s.players && q.id != id
  {
    s.(players := Remove(s.players, id), participants := s.participants - {id})
  }

  // ---------------------------------------------------------------------
  // The event loop

  /** One external event, processed to completion before the next. */
  datatype Event =
    | Connect(id: Id)
    | Join(id: Id, name: Option<string>)
    | Start(picks: seq<int>)
    | Reset
    | Move(id: Id, to: MoveRequest, now: int)
    | Disconnect(id: Id)
    | Tick

  /** The shuffle draws of a start event are in range, as `Math.random`
      guarantees. */
  predicate EventOk(cfg: Config, e: Event) {
    e.Start? ==> GridGen.ValidPicks(e.picks, cfg.rows * cfg.cols)
  }

  function PhaseRank(ph: Phase): int {
    match ph
    case Idle => 0
    case Preparing => 1
    case Playing => 2
    case Ended => 3
  }

  /** Dispatches one event. A `join` can only come from a connected socket;
      one from an unknown id is ignored. Every event keeps the invariant,
      and the phase either stays or moves one step along
      Idle -> Preparing -> Playing -> Ended, never back. */
  function Step(cfg: Config, s: Session, e: Event): (o: Outcome)
    requires Valid(cfg, s) && EventOk(cfg, e)
    ensures Valid(cfg, o.session)
    ensures PhaseRank(o.session.phase) == PhaseRank(s.phase)
            || PhaseRank(o.session.phase) == PhaseRank(s.phase) + 1
    ensures o.report.Some? ==> s.phase == Phase.Playing && o.session.phase == Ended
  {
    match e
    case Connect(id) => Outcome(OnConnect(cfg, s, id), None)
    case Join(id, name) =>
      if id in Ids(s.players) then Outcome(OnJoin(cfg, s, id, name).session, None)
      else Outcome(s, None)
    case Start(picks) => Outcome(OnStart(cfg, s, picks), None)
    case Reset => Outcome(OnReset(cfg, s), None)
    case Move(id, to, now) => Outcome(OnMove(cfg, s, id, to, now).session, None)
    case Disconnect(id) => Outcome(OnDisconnect(cfg, s, id), None)
    case Tick => OnTick(cfg, s)
  }

  /** Processes a sequence of events in order. */
  function Run(cfg: Config, s: Session, es: seq<Event>): (t: Session)
    requires Valid(cfg, s) && forall i :: 0 <= i < |es| ==> EventOk(cfg, es[i])
    ensures Valid(cfg, t)
    ensures PhaseRank(s.phase) <= PhaseRank(t.phase)
    decreases |es|
  {
    if |es| == 0 then s else Run(cfg, Step(cfg, s, es[0]).session, es[1..])
  }

  /** Ended is a dead end: since `reset` is honoured only in Idle, once a
      game has ended no sequence of events leaves Ended, and the grid and
      the optimal result stay as they were. */
  lemma {:induction false} EndedIsFinal(cfg: Config, s: Session, es: seq<Event>)
    requires Valid(cfg, s) && s.phase == Ended
    requires forall i :: 0 <= i < |es| ==> EventOk(cfg, es[i])
    ensures var t := Run(cfg, s, es);
      t.phase == Ended && t.grid == s.grid && t.optimal == s.optimal
    decreases |es|
  {
    if |es| > 0 {
      var t := Step(cfg, s, es[0]).session;
      assert t.phase == Ended && t.grid == s.grid && t.optimal == s.optimal;
      EndedIsFinal(cfg, t, es[1..]);
    }
  }

  /** In every state reachable from the initial one, every player's path
      has its cell `i` on row `i`, its columns inside the grid, at most one
      column between neighbours, at most `rows` cells, and a score equal to
      its score from scratch. */
  lemma ReachablePathsLegal(cfg: Config, es: seq<Event>)
    requires cfg.Valid()
    requires forall i :: 0 <= i < |es| ==> EventOk(cfg, es[i])
    ensures var t := Run(cfg, Init(cfg), es);
      forall p :: p in t.players ==>
        && |p.path| <= cfg.rows
        && (forall i :: 0 <= i < |p.path| ==> p.path[i].r == i && 0 <= p.path[i].c < cfg.cols)
        && (forall i :: 0 < i < |p.path| ==> Abs(p.path[i].c - p.path[i - 1].c) <= 1)
        && (t.grid.Some? ==> OnGrid(t.grid.value, p.path)
                             && p.score == ComputeScore(t.grid.value, p.path))
  {
    InitValid(cfg);
    var t := Run(cfg, Init(cfg), es);
    forall p | p in t.players
      ensures |p.path| <= cfg.rows
      ensures forall i :: 0 <= i < |p.path| ==> p.path[i].r == i && 0 <= p.path[i].c < cfg.cols
      ensures forall i :: 0 < i < |p.path| ==> Abs(p.path[i].c - p.path[i - 1].c) <= 1
      ensures t.grid.Some? ==> OnGrid(t.grid.value, p.path)
                               && p.score == ComputeScore(t.grid.value, p.path)
    {
      assert PlayerValid(cfg, t.grid, p);
    }
  }

  /** Nobody who finished beats the solver: every ranked finisher's score is
      at least the optimal score. */
  lemma OptimalNoWorseThanFinishers(cfg: Config, s: Session)
    requires Valid(cfg, s) && s.grid.Some?
    ensures var best := Solver.ComputeOptimalPath(s.grid.value, cfg.rows, cfg.cols);
      forall e :: e in Ranking.EndRanking(s.players).finished ==> best.bestScore <= e.score
  {
    var best := Solver.ComputeOptimalPath(s.grid.value, cfg.rows, cfg.cols);
    var sorted := Ranking.SortByRank(Ranking.Finishers(s.players));
    var f := Ranking.EndRanking(s.players).finished;
    forall e | e in f ensures best.bestScore <= e.score {
      var i :| 0 <= i < |f| && f[i] == e;
      var p := sorted[i];
      assert p in multiset(Ranking.Finishers(s.players));
      assert p in s.players && Ranking.IsFinisher(p);
      assert PlayerValid(cfg, s.grid, p);
      assert FullPath(p.path, cfg.rows, cfg.cols);
    }
  }
}

=== FILE: solver.dfy ===
/** `computeOptimalPath`: the row-by-row dynamic program with back-pointers
    that finds a minimum-score full path. */
module Solver {
  import opened Wrappers
  import opened Paths

  /** One DP cell: the least score of a path reaching it, and the column of
      its predecessor on the previous row (None on row 0). */
  datatype Entry = Entry(cost: int, from: Option<int>)

  /** The solver's answer. */
  datatype Optimal = Optimal(bestPath: seq<Cell>, bestScore: int)

  /** The score of reaching `(r, c)` through the previous-row column `pc`. */
  function Candidate(g: Grid, rows: nat, cols: nat, prev: seq<Entry>, r: int, c: int, pc: int): int
    requires WellShaped(g, rows, cols) && |prev| == cols
    requires 1 <= r < rows && 0 <= c < cols && 0 <= pc < cols
  {
    prev[pc].cost + Abs(g[r][c] - g[r - 1][pc])
  }

  /** One step of the `dc` loop: skip an out-of-range column, otherwise keep
      the candidate only if there is no best yet or it is strictly cheaper. */
  function Relax(g: Grid, rows: nat, cols: nat, prev: seq<Entry>, r: int, c: int, pc: int,
                 best: Option<Entry>): Option<Entry>
    requires WellShaped(g, rows, cols) && |prev| == cols
    requires 1 <= r < rows && 0 <= c < cols
  {
    if pc < 0 || pc >= cols then best
    else
      var cost := Candidate(g, rows, cols, prev, r, c, pc);
      if best.None? || cost < best.value.cost then Some(Entry(cost, Some(pc))) else best
  }

  /** Predecessor choice for `(r, c)`, scanning `dc` = -1, 0, +1. The chosen
      predecessor is an adjacent column achieving the minimum, and every
      adjacent column scanned before it is strictly more expensive: ties go
      to the first candidate in `dc` order. */
  function BestPred(g: Grid, rows: nat, cols: nat, prev: seq<Entry>, r: int, c: int): (e: Entry)
    requires WellShaped(g, rows, cols) && |prev| == cols
    requires 1 <= r < rows && 0 <= c < cols
    ensures e.from.Some? && 0 <= e.from.value < cols && Abs(e.from.value - c) <= 1
    ensures e.cost == Candidate(g, rows, cols, prev, r, c, e.from.value)
    ensures forall q :: 0 <= q < cols && Abs(q - c) <= 1 ==>
              e.cost <= Candidate(g, rows, cols, prev, r, c, q)
    ensures forall q :: 0 <= q < e.from.value && Abs(q - c) <= 1 ==>
              e.cost < Candidate(g, rows, cols, prev, r, c, q)
  {
    var b := Relax(g, rows, cols, prev, r, c, c + 1,
               Relax(g, rows, cols, prev, r, c, c,
                 Relax(g, rows, cols, prev, r, c, c - 1, None)));
    b.value
  }

  /** Row `r` of the DP table. Row 0 is seeded with the grid values. */
  function DpRow(g: Grid, rows: nat, cols: nat, r: int): (row: seq<Entry>)
    requires WellShaped(g, rows, cols) && 0 <= r < rows
    ensures |row| == cols
    ensures forall c :: 0 <= c < cols && r == 0 ==> row[c] == Entry(g[0][c], None)
    ensures forall c :: 0 <= c < cols && r > 0 ==>
              row[c].from.Some? && 0 <= row[c].from.value < cols && Abs(row[c].from.value - c) <= 1
    decreases r
  {
    if r == 0 then seq(cols, c requires 0 <= c < cols => Entry(g[0][c], None))
    else
      var prev := DpRow(g, rows, cols, r - 1);
      seq(cols, c requires 0 <= c < cols => BestPred(g, rows, cols, prev, r, c))
  }

  /** Cell `(r, c)` of a later row is the best-predecessor choice over the
      previous row. */
  lemma DpRowAt(g: Grid, rows: nat, cols: nat, r: int, c: int)
    requires WellShaped(g, rows, cols) && 1 <= r < rows && 0 <= c < cols
    ensures DpRow(g, rows, cols, r)[c] == BestPred(g, rows, cols, DpRow(g, rows, cols, r - 1), r, c)
  {
  }

  /** Follows the back-pointers from `(r, c)` back to row 0: a legal path
      of `r + 1` cells ending at `(r, c)` whose every cell is the recorded
      predecessor of the next. */
  function Reconstruct(g: Grid, rows: nat, cols: nat, r: int, c: int): (p: seq<Cell>)
    requires WellShaped(g, rows, cols) && 0 <= r < rows && 0 <= c < cols
    ensures |p| == r + 1 && p[r] == Cell(r, c) && LegalPath(p, cols)
    ensures forall i :: 0 < i <= r ==>
              p[i - 1].c == DpRow(g, rows, cols, i)[p[i].c].from.value
    decreases r
  {
    if r == 0 then [Cell(0, c)]
    else
      var pc := DpRow(g, rows, cols, r)[c].from.value;
      var q := Reconstruct(g, rows, cols, r - 1, pc);
      assert q[r - 1] == Cell(r - 1, pc);
      CanMoveKeepsLegal(q, Cell(r, c), rows, cols);
      var p := q + [Cell(r, c)];
      forall i | 0 < i <= r
        ensures p[i - 1].c == DpRow(g, rows, cols, i)[p[i].c].from.value
      {
        if i < r {
          assert p[i - 1] == q[i - 1] && p[i] == q[i];
        }
      }
      p
  }

  /** Every DP cost is achieved: the reconstructed path to `(r, c)` scores
      exactly the DP cost of `(r, c)`. */
  lemma {:induction false} DpCostAchieved(g: Grid, rows: nat, cols: nat, r: int, c: int)
    requires WellShaped(g, rows, cols) && 0 <= r < rows && 0 <= c < cols
    ensures OnGrid(g, Reconstruct(g, rows, cols, r, c))
    ensures ComputeScore(g, Reconstruct(g, rows, cols, r, c)) == DpRow(g, rows, cols, r)[c].cost
    decreases r
  {
    var p := Reconstruct(g, rows, cols, r, c);
    LegalPathOnGrid(g, rows, cols, p);
    if r > 0 {
      var pc := DpRow(g, rows, cols, r)[c].from.value;
      var q := Reconstruct(g, rows, cols, r - 1, pc);
      DpCostAchieved(g, rows, cols, r - 1, pc);
      DpRowAt(g, rows, cols, r, c);
      ComputeScoreAppend(g, q, Cell(r, c));
      assert q[r - 1] == Cell(r - 1, pc);
    }
  }

  /** Every DP cost is a lower bound: no legal path ending at `(r, c)` scores
      less than the DP cost of `(r, c)`. */
  lemma {:induction false} DpCostOptimal(g: Grid, rows: nat, cols: nat, p: seq<Cell>)
    requires WellShaped(g, rows, cols) && LegalPath(p, cols) && 1 <= |p| <= rows
    ensures OnGrid(g, p)
    ensures DpRow(g, rows, cols, |p| - 1)[p[|p| - 1].c].cost <= ComputeScore(g, p)
    decreases |p|
  {
    LegalPathOnGrid(g, rows, cols, p);
    var r := |p| - 1;
    var c := p[r].c;
    if r > 0 {
      var q := p[..r];
      var pc := p[r - 1].c;
      assert p == q + [p[r]];
      assert q[r - 1] == p[r - 1];
      LegalPathPrefix(p, cols, r);
      LegalPathOnGrid(g, rows, cols, q);
      DpCostOptimal(g, rows, cols, q);
      var prev := DpRow(g, rows, cols, r - 1);
      assert prev[pc].cost <= ComputeScore(g, q);
      ComputeScoreAppend(g, q, p[r]);
      assert ComputeScore(g, p) == ComputeScore(g, q) + Abs(g[r][c] - g[r - 1][pc]);
      DpRowAt(g, rows, cols, r, c);
      assert Abs(pc - c) <= 1;
      assert DpRow(g, rows, cols, r)[c].cost <= Candidate(g, rows, cols, prev, r, c, pc);
    }
  }

  /** The end-column scan of `computeOptimalPath` from column `c`, holding
      the best column `k` of the columns before `c`; strict `<` keeps the
      leftmost minimum. */
  function ScanMin(costs: seq<int>, c: int, k: int): (m: int)
    requires 0 <= k < c <= |costs|
    requires forall j :: 0 <= j < c ==> costs[k] <= costs[j]
    requires forall j :: 0 <= j < k ==> costs[k] < costs[j]
    ensures 0 <= m < |costs|
    ensures forall j :: 0 <= j < |costs| ==> costs[m] <= costs[j]
    ensures forall j :: 0 <= j < m ==> costs[m] < costs[j]
    decreases |costs| - c
  {
    if c == |costs| then k
    else ScanMin(costs, c + 1, if costs[c] < costs[k] then c else k)
  }

  /** The leftmost position of a minimum of a non-empty sequence. */
  function LeftmostMin(costs: seq<int>): (m: int)
    requires |costs| > 0
    ensures 0 <= m < |costs|
    ensures forall j :: 0 <= j < |costs| ==> costs[m] <= costs[j]
    ensures forall j :: 0 <= j < m ==> costs[m] < costs[j]
  {
    ScanMin(costs, 1, 0)
  }

  /** `computeOptimalPath`: its best path is a full legal path, its score is
      that path's score, no full legal path scores less, every full legal
      path ending left of the chosen end column scores strictly more (the
      leftmost-end tie-break), and the path follows the DP back-pointers
      (the tie-break among predecessors). */
  function ComputeOptimalPath(g: Grid, rows: nat, cols: nat): (o: Optimal)
    requires WellShaped(g, rows, cols) && rows >= 1 && cols >= 1
    ensures FullPath(o.bestPath, rows, cols) && OnGrid(g, o.bestPath)
    ensures o.bestScore == ComputeScore(g, o.bestPath)
    ensures forall p: seq<Cell> :: FullPath(p, rows, cols) ==>
              OnGrid(g, p) && o.bestScore <= ComputeScore(g, p)
    ensures forall p: seq<Cell> :: FullPath(p, rows, cols) && p[rows - 1].c < o.bestPath[rows - 1].c ==>
              OnGrid(g, p) && o.bestScore < ComputeScore(g, p)
    ensures forall i :: 0 < i < rows ==>
              o.bestPath[i - 1].c == DpRow(g, rows, cols, i)[o.bestPath[i].c].from.value
  {
    var last := DpRow(g, rows, cols, rows - 1);
    var costs := seq(cols, c requires 0 <= c < cols => last[c].cost);
    var k := LeftmostMin(costs);
    var path := Reconstruct(g, rows, cols, rows - 1, k);
    DpCostAchieved(g, rows, cols, rows - 1, k);
    AllFullPathsBounded(g, rows, cols, costs, k);
    Optimal(path, last[k].cost)
  }

  lemma AllFullPathsBounded(g: Grid, rows: nat, cols: nat, costs: seq<int>, k: int)
    requires WellShaped(g, rows, cols) && rows >= 1
    requires |costs| == cols && 0 <= k < cols
    requires forall c :: 0 <= c < cols ==> costs[c] == DpRow(g, rows, cols, rows - 1)[c].cost
    requires forall j :: 0 <= j < cols ==> costs[k] <= costs[j]
    requires forall j :: 0 <= j < k ==> costs[k] < costs[j]
    ensures forall p: seq<Cell> :: FullPath(p, rows, cols) ==>
              OnGrid(g, p) && costs[k] <= ComputeScore(g, p)
    ensures forall p: seq<Cell> :: FullPath(p, rows, cols) && p[rows - 1].c < k ==>
              OnGrid(g, p) && costs[k] < ComputeScore(g, p)
  {
    forall p: seq<Cell> | FullPath(p, rows, cols)
      ensures OnGrid(g, p) && costs[k] <= ComputeScore(g, p)
      ensures p[rows - 1].c < k ==> costs[k] < ComputeScore(g, p)
    {
      DpCostOptimal(g, rows, cols, p);
      var e := p[rows - 1].c;
      assert 0 <= e < cols;
      assert costs[e] <= ComputeScore(g, p);
      assert costs[k] <= costs[e];
    }
  }
}

=== FILE: wrappers.dfy ===
/** Optional values, standing in for the `null` the game server uses for
    "not yet computed" or "absent". */
module Wrappers {

  datatype Option<+T> = None | Some(value: T) {

    /** Returns the value held in Some, or `default` for None. */
    function GetOr(default: T): T {
      match this
      case Some(v) => v
      case None => default
    }
  }
}
